=== FILE: README.md ===
# Vacancies spider, modelled in Dafny

`VacanciesSpider` crawls the Python job listings of djinni.co. Its `parse` callback turns
a listing page into one request per vacancy link plus a request for the next listing
page. Its `get_single_vacancy` callback turns a vacancy page into one record of fifteen
fields. Static helpers extract the salary, English level, years of experience, domain,
countries, publication date and mentioned technologies.

The model is pure: every callback and helper is a function and every promise is a lemma.
The page is abstracted to what its selectors return. Each `.get()` becomes an
`Option<string>` and each `.getall()` a `seq<string>`. The `.text-muted` selection is a
sequence of element texts.

An exception that Python would raise is an `Err(Error(field, cause))`. `Error` names the
record field and the kind of exception. The record is yielded exactly when no lookup
raised.

Files:

- `wrappers.dfy`: `Option` and `Result`.
- `scan.dfy`: runs of characters of one class.
- `numbers.dfy`: decimal digits, their rendering, and `int()` on text.
- `strings.dfy`: Python whitespace, `strip`, `split`, `replace`, `in`, ASCII `lower`,
  and `list.index`.
- `sorting.dfy`: `sorted` on strings, with code point order.
- `calendar.dfy`: `datetime.date` validity.
- `patterns.dfy`: the three regular expressions and `re_first`.
- `extractors.dfy`: the static helpers.
- `spider.dfy`: the two callbacks.

## Model

| member | source | states |
|---|---|---|
| Spider.Parse | scraping/spiders/vacancies.py:16-36 | One request per link, in link order, to the link resolved against the page and handled by `get_single_vacancy`. Then, exactly when there is a pagination link, one request for it handled by `parse`. |
| Spider.DetailRequests | scraping/spiders/vacancies.py:25-29 | The i-th request fetches the i-th resolved link with the detail callback. There is exactly one request per link. |
| Spider.ParseCounts | scraping/spiders/vacancies.py:21-36 | A listing page yields as many detail requests as it has links. It yields one next-page request if there is a pagination link and none otherwise. |
| Spider.CountOf | scraping/spiders/vacancies.py:48-53 | The view or applicant count fails with `TypeError` exactly when no muted element holds digits followed by the suffix. Otherwise it is the value of the digits `re_first` captured. |
| Spider.CountRead | scraping/spiders/vacancies.py:48-53 | `"<n> перегляд..."` gives `n` views and `"<n> відгук..."` gives `n` applicants. This holds when no earlier muted element holds such a count and no count match starts before the number in its element. Other digits, such as a date, may come before it. |
| Spider.CountAfterDate | scraping/spiders/vacancies.py:48-53 | A count that follows a date and `" · "` in one muted element is read as the number before the suffix, and the date's digits are not taken for it. The exception is a month word that begins with the suffix's own word, because then the day itself is followed by the suffix. |
| Spider.ApplicantsAfterSeptember | scraping/spiders/vacancies.py:51-53 | `"5 вересня 2023 · 3 відгуки"` gives 3 applicants, although "вересня" and "відгук" share their first letter. |
| Spider.CountFound | scraping/spiders/vacancies.py:48-53 | Digits followed by the suffix anywhere in any muted element make the count succeed. With `CountOf` this gives both directions of "fails exactly when no element holds a count". |
| Spider.StrippedText | scraping/spiders/vacancies.py:56-58 | The title and the company fail with `AttributeError` exactly when their node is missing. Otherwise they are stripped. |
| Spider.GetSingleVacancy | scraping/spiders/vacancies.py:38-71 | A yielded record has a stripped title and company, a real calendar date within the month vocabulary, sorted countries, and English level and domain values without ':'. The date is read with the class `[а-я]` as line 117 writes it. |
| Spider.Assemble | scraping/spiders/vacancies.py:38-71 | A record is built exactly when every raising lookup succeeded, and it holds the looked-up values in their keys. The error reported is the first failure in evaluation order: views, applicants, title, then the dictionary's company, English level, experience, domain, publication date and technologies. |
| Spider.RecordIffRequired | scraping/spiders/vacancies.py:38-71 | `get_single_vacancy` yields a record if and only if all of these hold: both counts are found; the title and the company exist; the English level and the domain, when present, hold a ':'; the experience parses; the date, read with `[а-я]` as written, parses; and the description exists. |
| Spider.RecordFields | scraping/spiders/vacancies.py:42-71 | In a yielded record: the two flags are the truthiness of their text. The title and the company are stripped. The job and company types are passed through. Every other field is its helper's result; the date is the one read with `[а-я]` as written. |
| Spider.FirstFailureReported | scraping/spiders/vacancies.py:48-56 | A missing view count is reported before a missing applicant count, and that before a missing title. |
| Spider.OptionalLookupsNeverFail | scraping/spiders/vacancies.py:42-47 | Whether a record is yielded does not depend on the salary, job type, company type, country, relocation or test-task lookups. |
| Extractors.GetSalary | scraping/spiders/vacancies.py:74-78 | The salary is `None` exactly when the node is missing. Otherwise it has one integer per maximal digit run, the k-th being the value of the k-th run. |
| Extractors.SalaryRoundTrip | scraping/spiders/vacancies.py:74-78 | Numbers written with a non-empty digit-free separator ("-", " до "), inside digit-free text, are read back exactly and in order. |
| Extractors.SalaryWithoutDigits | scraping/spiders/vacancies.py:77-78 | Salary text without digits gives the empty list, not `None`. |
| Extractors.LabelledValue | scraping/spiders/vacancies.py:81-87 | `None` exactly when the node is missing. `IndexError` exactly when the text has no ':'. Otherwise the value is stripped and holds no ':'. |
| Extractors.GetEnglishLevel | scraping/spiders/vacancies.py:80-87 | `None` exactly when the node is missing. `IndexError`, reported against the English level, exactly when the text has no ':'. |
| Extractors.GetDomain | scraping/spiders/vacancies.py:97-104 | `None` exactly when the node is missing. `IndexError`, reported against the domain, exactly when the text has no ':'. |
| Extractors.LabelledValueBetweenColons | scraping/spiders/vacancies.py:86-87 | The value is the text between the first ':' and the next ':' (or the end), stripped. |
| Extractors.GetExperienceYears | scraping/spiders/vacancies.py:90-95 | A missing node raises. Every failure is reported against the experience field. |
| Extractors.ExperienceNoneRequired | scraping/spiders/vacancies.py:95 | A first word of "Без" gives 0 years. |
| Extractors.ExperienceNumber | scraping/spiders/vacancies.py:95 | A first word that is a decimal number gives that number. |
| Extractors.ExperienceNotANumber | scraping/spiders/vacancies.py:95 | A first word without "Б" that holds a character other than a digit, an underscore or a leading sign raises `ValueError`. |
| Extractors.ExperienceBlank | scraping/spiders/vacancies.py:95 | Blank text raises `IndexError`. |
| Extractors.GetCountry | scraping/spiders/vacancies.py:107-111 | The countries are `None` exactly when the node is missing. Otherwise they are sorted. |
| Extractors.CountryPieces | scraping/spiders/vacancies.py:110-111 | The countries are a permutation of the stripped comma-separated pieces. There is one more of them than there are commas. None holds a comma or outer whitespace. |
| Extractors.CountryPair | scraping/spiders/vacancies.py:111 | `"A, B"` gives the two names in ascending order. |
| Extractors.PublicationDateWith | scraping/spiders/vacancies.py:114-125 | No match in any muted element raises `AttributeError`. Otherwise the result is what the first match's text reads as. A returned date is a real calendar date whose month is within the vocabulary. Every failure is reported against the date field. |
| Extractors.GetPublicationDateAsWritten | scraping/spiders/vacancies.py:113-125 | `get_publication_date` with `[а-я]`: a returned date is real and its month within the vocabulary; failures are reported against the date field. |
| Extractors.GetPublicationDate | scraping/spiders/vacancies.py:113-125 | The same promise with the Ukrainian month letters in the class. |
| Extractors.DateFromText | scraping/spiders/vacancies.py:119-125 | The same promise for the matched text, after it is split into day, month word and year. |
| Extractors.DateFromMatch | scraping/spiders/vacancies.py:119-125 | A matched word missing from the months raises `ValueError`. Otherwise the date is (value of the year, 1 + first index of the word, value of the day), and `ValueError` is raised when that day does not exist. |
| Extractors.PublicationDateOfMatch | scraping/spiders/vacancies.py:114-125 | The same reading for the first match `re_first` returns from the muted elements. |
| Extractors.PublicationDateRoundTrip | scraping/spiders/vacancies.py:114-125 | A date that the page writes as day, vocabulary month word and four-digit year is read back as that date. Earlier muted elements without a date and digit-free text before the date may be present. |
| Extractors.PublicationDateExample | scraping/spiders/vacancies.py:114-125 | With "травня" as month 5, "5 травня 2023" gives 2023-05-05 under `[а-я]` as written. |
| Extractors.FebruaryThirtyFirst | scraping/spiders/vacancies.py:114-125 | With "лютого" as month 2, "31 лютого 2023" is matched and then raises `ValueError` from `date(...)`. |
| Extractors.GetTechnologies | scraping/spiders/vacancies.py:128-134 | A missing description raises `AttributeError`. Otherwise the result is the sub-list of the vocabulary, in vocabulary order, holding exactly the entries whose lowercase form occurs in the lowercase description. |
| Extractors.Mentioned | scraping/spiders/vacancies.py:131-134 | The kept entries are a subsequence of the vocabulary. An entry is kept if and only if it occurs. |
| Extractors.MentionedAppend | scraping/spiders/vacancies.py:131-134 | Filtering a vocabulary in two parts gives the concatenation of the two filterings. |
| Extractors.TechnologiesIgnoreCase | scraping/spiders/vacancies.py:129 | The result depends only on the lowercase form of the description. |
| Extractors.AprilRejectedAsWritten | scraping/spiders/vacancies.py:115-119 | With the class `[а-я]` as written, "1 квітня 2023" is not matched, so the lookup raises. |
| Extractors.AprilAccepted | scraping/spiders/vacancies.py:115-125 | With the Ukrainian month letters, "1 квітня 2023" gives 2023-04-01. |
| Patterns.Search | scraping/spiders/vacancies.py:49 | A match found is the match at some position. No match is found only when no position matches. |
| Patterns.SearchLeftmost | scraping/spiders/vacancies.py:49 | The match returned is the leftmost one. |
| Patterns.ReFirst | scraping/spiders/vacancies.py:49 | `re_first` returns the match of the first element that has one; every earlier element has none. It returns `None` only when no element matches. |
| Patterns.ReFirstSkip | scraping/spiders/vacancies.py:49 | Elements without a match before the rest do not change what `re_first` returns. |
| Patterns.CountAt | scraping/spiders/vacancies.py:49-52 | The captured group is a non-empty run of digits, and the text starts with it followed by the suffix. |
| Patterns.CountAtText | scraping/spiders/vacancies.py:49-52 | Conversely, a text that starts with a non-empty digit run followed by the suffix is matched, and the group is that run, leading zeros included. |
| Patterns.CountRoundTrip | scraping/spiders/vacancies.py:49-52 | `"<n><suffix>"` after digit-free text captures exactly the decimal form of `n`. |
| Patterns.DateAt | scraping/spiders/vacancies.py:117 | A date match is well formed (one or two digits, a run of letters, four digits) and is a prefix of the text. |
| Patterns.DateAtText | scraping/spiders/vacancies.py:117 | A well-formed date text is matched whole. |
| Patterns.DateMatchWords | scraping/spiders/vacancies.py:119 | Splitting a matched date on whitespace gives exactly its day, word and year. |
| Strings.Strip | scraping/spiders/vacancies.py:56 | The result is stripped. It is a slice of the input with only whitespace cut off at each end. |
| Strings.StripAround | scraping/spiders/vacancies.py:56 | Whitespace around a stripped non-empty text is all removed. |
| Strings.Split | scraping/spiders/vacancies.py:111 | `split(c)` gives one more piece than there are `c`s, and no piece holds `c`. |
| Strings.SplitJoin | scraping/spiders/vacancies.py:111 | Joining the pieces with `c` gives back the text. |
| Strings.JoinSplit | scraping/spiders/vacancies.py:111 | Splitting a join of `c`-free pieces gives back the pieces. |
| Strings.Replace | scraping/spiders/vacancies.py:95 | Text that does not contain the pattern is left unchanged. |
| Strings.ReplaceLeftmost | scraping/spiders/vacancies.py:95 | The leftmost occurrence of the pattern is replaced, the text before it is kept, and replacing goes on after it. |
| Strings.Words | scraping/spiders/vacancies.py:95 | `split()` gives non-empty pieces without whitespace that, put together, are the text without its whitespace. |
| Strings.ContainsOccurs | scraping/spiders/vacancies.py:133 | `needle in hay` holds if and only if the needle occurs at some index. |
| Strings.Lower | scraping/spiders/vacancies.py:129 | The length is kept. Each ASCII capital becomes its small letter. Every other character is unchanged. |
| Strings.IndexOf | scraping/spiders/vacancies.py:123 | `months.index(w)` is the first index holding `w`. It fails exactly when `w` is absent. |
| Numbers.DecimalRoundTrip | scraping/spiders/vacancies.py:78 | The value of a number's decimal form is that number. |
| Numbers.ParseInt | scraping/spiders/vacancies.py:95 | `int()` accepts only non-empty text made of digits and underscores, with an optional leading sign. |
| Numbers.ParseIntEmpty | scraping/spiders/vacancies.py:95 | `int("")` raises `ValueError`. |
| Numbers.ParseIntGroups | scraping/spiders/vacancies.py:95 | Underscores between digit groups are skipped: `int("1_000")` is 1000. |
| Numbers.ParseIntDigits | scraping/spiders/vacancies.py:122-124 | `int()` reads a non-empty run of digits as its decimal value, leading zeros allowed. |
| Numbers.ParseIntDecimal | scraping/spiders/vacancies.py:95 | `int()` reads a decimal form, optionally negated, back as the number. |
| Scan.Runs | scraping/spiders/vacancies.py:78 | `findall(r"\d+")` gives non-empty runs of digits. |
| Scan.RunsCoverClass | scraping/spiders/vacancies.py:78 | Put together, the runs are exactly the text's characters of the class, in order. |
| Sorting.Sort | scraping/spiders/vacancies.py:111 | `sorted` gives an ascending permutation of its input. |
| Sorting.SortedUnique | scraping/spiders/vacancies.py:111 | There is exactly one ascending permutation, so `sorted` is determined by its contents. |
| Calendar.MakeDate | scraping/spiders/vacancies.py:121-125 | `date(...)` succeeds exactly when the year is in 1..9999, the month is in 1..12 and the day is in range for that month. |

## Left out

- Scrapy itself is not modelled: `Response`, CSS and XPath selection, scheduling, and the
  generator protocol. Each selector's result is an input. Each callback returns the list of
  what it yields.
- `response.urljoin` and `response.follow` are the parameter `resolve` of `Spider.Parse`.
  URL resolution is not modelled.
- The class attributes `name`, `allowed_domains` and `start_urls` (lines 12-14) are
  configuration and are not modelled.
- The `months` and `technologies` lists from `config` are the parameter
  `Spider.Vocabulary`, because `config.py` is not part of this model.
- Regular-expression `\d` and `int()` are modelled on ASCII digits only. Python also accepts
  other Unicode decimal digits. `int()` models the sign and underscores between digits.
- Strings.Lower: lowers ASCII letters only. Python's `str.lower` also lowers Cyrillic and
  other letters, so the model matches fewer vocabulary entries when the description or an
  entry has non-ASCII capitals.
- The regular expressions run on the text of each `.text-muted` element as given. Any
  markup the selector's `re_first` sees is part of that text.
- Calendar.MakeDate: its contract only restates `datetime.date`'s validity rule, because
  validity is that rule.
- Calling a callback twice on the same page gives the same result, because the model is
  made of functions. No lemma states this.
- The record reads the date with `[а-я]` as line 117 writes it. The corrected reader
  `Extractors.GetPublicationDate` is stated on its own, and no record is built with it.
- Sorting compares strings by code point, as Python does. Locale collation is not involved.
- Extractors.GetExperienceYears: its own contract states only the missing node and the field of
  every failure. `ExperienceNoneRequired`, `ExperienceNumber`, `ExperienceNotANumber` and
  `ExperienceBlank` give the result for the text shapes they describe. Other first words, such as
  a "Без" inside a longer word, are covered by no lemma.
- Extractors.GetSalary: does not model the `ValueError` that `int()` raises on a digit run longer
  than 4300 digits (Python's default `int_max_str_digits`). Unbounded integers read every run.
- Spider.CountOf: does not model the 4300-digit `ValueError` of `int()` either. Any captured count
  is read.
- Extractors.GetExperienceYears: does not model the 4300-digit `ValueError` of `int()`. The model
  reads a longer number, where Python raises.
- Spider.OptionalLookupsNeverFail: holds only without the 4300-digit limit. In Python, a salary
  with a digit run longer than 4300 digits raises and aborts the record.

## Findings

| source | as written | input that shows it | evidently intended | confidence | as-written member | corrected member |
|---|---|---|---|---|---|---|
| scraping/spiders/vacancies.py:117 | The month class `[а-я]` covers U+0430 to U+044F. That range leaves out the Ukrainian letters і, ї, є and ґ. | Any date in January ("січня") or April ("квітня"), for example "1 квітня 2023". It is not matched, so `date_text` is `None` and `.split()` raises `AttributeError`. | Match every Ukrainian month word, so that 1 April 2023 is read as 2023-04-01. | not executed | Extractors.AprilRejectedAsWritten (on Extractors.GetPublicationDateAsWritten) | Extractors.AprilAccepted (on Extractors.GetPublicationDate) |

=== FILE: calendar.dfy ===
/** The proleptic Gregorian dates Python's `datetime.date` accepts. */
module Calendar {
  import opened Wrappers

  datatype Date = Date(year: int, month: int, day: int)

  predicate IsLeapYear(year: int) {
    year % 4 == 0 && (year % 100 != 0 || year % 400 == 0)
  }

  function DaysInMonth(year: int, month: int): (n: int)
    requires 1 <= month <= 12
    ensures 28 <= n <= 31
  {
    if month == 2 then (if IsLeapYear(year) then 29 else 28)
    else if month == 4 || month == 6 || month == 9 || month == 11 then 30
    else 31
  }

  /** Year within `MINYEAR`..`MAXYEAR` (1..9999), month 1..12, day within the month. */
  predicate IsValid(d: Date) {
    && 1 <= d.year <= 9999
    && 1 <= d.month <= 12
    && 1 <= d.day <= DaysInMonth(d.year, d.month)
  }

  /** `date(year=..., month=..., day=...)`; `None` stands for the `ValueError` it raises. */
  function MakeDate(year: int, month: int, day: int): (r: Option<Date>)
    ensures r.Some? <==> IsValid(Date(year, month, day))
    ensures r.Some? ==> r.value == Date(year, month, day)
  {
    if 1 <= year <= 9999 && 1 <= month <= 12 && 1 <= day <= DaysInMonth(year, month) then
      Some(Date(year, month, day))
    else None
  }
}

=== FILE: extractors.dfy ===
/**
 * The static field helpers of `VacanciesSpider`. Each receives what one selector lookup
 * returned (the text, or `None`) and turns it into a typed value, into "absent" (`None`),
 * or into the exception Python would raise (`Err`).
 */
module Extractors {
  import opened Wrappers
  import opened Scan
  import opened Numbers
  import opened Strings
  import opened Sorting
  import opened Calendar
  import opened Patterns

  /** The record field whose extraction raised. */
  datatype Field =
    | ViewsCount
    | ApplicantCount
    | Title
    | Company
    | EnglishLevel
    | ExperienceYears
    | Domain
    | PublicationDate
    | Technologies

  /** Which exception was raised. */
  datatype Cause =
    | NoneText         // the lookup gave None: AttributeError on a method call, TypeError in int()
    | NoSecondPiece    // IndexError: `split(":")[1]` on text without ':'
    | NoFirstToken     // IndexError: `split()[0]` on blank text
    | NotAnInteger     // ValueError from int()
    | WrongTokenCount  // ValueError: unpacking `split()` into day, month, year
    | UnknownMonth     // ValueError from `months.index`
    | InvalidDate      // ValueError from `date(...)`

  datatype Error = Error(field: Field, cause: Cause)

  // ---------------------------------------------------------------- salary

  /** `get_salary`: the integer value of every maximal digit run, in order; `None` when absent. */
  function GetSalary(salary: Option<string>): (r: Option<seq<nat>>)
    ensures r.None? <==> salary.None?
    ensures r.Some? ==> |r.value| == |Runs(salary.value, IsDigit)|
    ensures r.Some? ==> forall k :: 0 <= k < |r.value| ==> r.value[k] == DecimalValue(Runs(salary.value, IsDigit)[k])
  {
    match salary
    case None => None
    case Some(s) =>
      var runs := Runs(s, IsDigit);
      Some(seq(|runs|, k requires 0 <= k < |runs| => DecimalValue(runs[k])))
  }

  /** The decimal renderings of `xs`. */
  function Rendered(xs: seq<nat>): seq<string> {
    seq(|xs|, k requires 0 <= k < |xs| => Decimal(xs[k]))
  }

  /** A separator without digits separates the digit runs on its two sides. */
  lemma RunsAroundSeparator(a: string, sep: string, b: string)
    requires sep != [] && forall i :: 0 <= i < |sep| ==> !IsDigit(sep[i])
    ensures Runs(a + sep + b, IsDigit) == Runs(a, IsDigit) + Runs(b, IsDigit)
  {
    assert a + sep + b == a + [sep[0]] + (sep[1..] + b);
    RunsSplit(a, sep[0], sep[1..] + b, IsDigit);
    RunsSkipPrefix(sep[1..], b, IsDigit);
  }

  /** Digit strings glued with a digit-free separator come back apart as the runs. */
  lemma {:induction false} RunsOfJoin(pieces: seq<string>, sep: string)
    requires sep != [] && forall i :: 0 <= i < |sep| ==> !IsDigit(sep[i])
    requires forall k :: 0 <= k < |pieces| ==> pieces[k] != [] && All(pieces[k], IsDigit)
    ensures Runs(JoinedWith(pieces, sep), IsDigit) == pieces
  {
    if |pieces| == 1 {
      RunsOfRun(pieces[0], IsDigit);
    } else if |pieces| > 1 {
      RunsOfJoin(pieces[1..], sep);
      RunsOfRun(pieces[0], IsDigit);
      RunsAroundSeparator(pieces[0], sep, JoinedWith(pieces[1..], sep));
      assert pieces == [pieces[0]] + pieces[1..];
    }
  }

  /**
   * Salary text made of numbers separated by a digit-free separator, with digit-free text
   * around them (`"$1500-2500"`, `"від 1000 до 2000 $"`), gives back exactly those numbers.
   */
  lemma SalaryRoundTrip(pre: string, xs: seq<nat>, sep: string, post: string)
    requires sep != [] && forall i :: 0 <= i < |sep| ==> !IsDigit(sep[i])
    requires forall i :: 0 <= i < |pre| ==> !IsDigit(pre[i])
    requires forall i :: 0 <= i < |post| ==> !IsDigit(post[i])
    ensures GetSalary(Some(pre + JoinedWith(Rendered(xs), sep) + post)) == Some(xs)
  {
    var body := JoinedWith(Rendered(xs), sep);
    RunsOfJoin(Rendered(xs), sep);
    RunsBetweenDigitFree(pre, body, post);
    ValuesOfRendered(xs);
  }

  /** Digit-free text around `body` adds no digit runs. */
  lemma RunsBetweenDigitFree(pre: string, body: string, post: string)
    requires forall i :: 0 <= i < |pre| ==> !IsDigit(pre[i])
    requires forall i :: 0 <= i < |post| ==> !IsDigit(post[i])
    ensures Runs(pre + body + post, IsDigit) == Runs(body, IsDigit)
  {
    assert pre + body + post == pre + (body + post);
    RunsSkipPrefix(pre, body + post, IsDigit);
    if post != [] {
      assert body + post == body + [post[0]] + post[1..];
      RunsSplit(body, post[0], post[1..], IsDigit);
      RunsOfNone(post[1..], IsDigit);
    } else {
      assert body + post == body;
    }
  }

  /** The values of the decimal renderings are the numbers. */
  lemma ValuesOfRendered(xs: seq<nat>)
    ensures var runs := Rendered(xs);
      seq(|runs|, k requires 0 <= k < |runs| => DecimalValue(runs[k])) == xs
  {
    var runs := Rendered(xs);
    var values := seq(|runs|, k requires 0 <= k < |runs| => DecimalValue(runs[k]));
    forall k | 0 <= k < |xs| ensures values[k] == xs[k] {
      DecimalRoundTrip(xs[k]);
    }
  }

  /** Salary text without any digit gives the empty list, not `None`. */
  lemma SalaryWithoutDigits(s: string)
    requires forall i :: 0 <= i < |s| ==> !IsDigit(s[i])
    ensures GetSalary(Some(s)) == Some([])
  {
    RunsOfNone(s, IsDigit);
  }

  // ------------------------------------------------------ labelled values

  /**
   * `text.split(":")[1].strip()` when the node is there; `get_english_level` and
   * `get_domain`. The value contains no ':' and is stripped; text without ':' raises
   * `IndexError`.
   */
  function LabelledValue(field: Field, text: Option<string>): (r: Result<Option<string>, Error>)
    ensures r == Ok(None) <==> text.None?
    ensures r.Err? <==> text.Some? && ':' !in text.value
    ensures r.Err? ==> r.error == Error(field, NoSecondPiece)
    ensures r.Ok? && r.value.Some? ==> ':' !in r.value.value && IsStripped(r.value.value)
  {
    match text
    case None => Ok(None)
    case Some(s) =>
      var pieces := Split(s, ':');
      CountPositive(s, ':');
      if |pieces| < 2 then Err(Error(field, NoSecondPiece))
      else
        StripInside(pieces[1], ':');
        Ok(Some(Strip(pieces[1])))
  }

  /** `get_english_level`: the labelled value, its failure reported against the English level. */
  function GetEnglishLevel(text: Option<string>): (r: Result<Option<string>, Error>)
    ensures r == Ok(None) <==> text.None?
    ensures r.Err? <==> text.Some? && ':' !in text.value
    ensures r.Err? ==> r.error == Error(EnglishLevel, NoSecondPiece)
  {
    LabelledValue(EnglishLevel, text)
  }

  /** `get_domain`: the labelled value, its failure reported against the domain. */
  function GetDomain(text: Option<string>): (r: Result<Option<string>, Error>)
    ensures r == Ok(None) <==> text.None?
    ensures r.Err? <==> text.Some? && ':' !in text.value
    ensures r.Err? ==> r.error == Error(Domain, NoSecondPiece)
  {
    LabelledValue(Domain, text)
  }

  /**
   * The value is the text between the first ':' and the second one (or the end), with the
   * whitespace around it removed: `"Англійська: Upper-Intermediate"` gives
   * `"Upper-Intermediate"`.
   */
  lemma LabelledValueBetweenColons(field: Field, name: string, v: string, rest: string)
    requires ':' !in name && ':' !in v
    ensures LabelledValue(field, Some(name + ":" + v)) == Ok(Some(Strip(v)))
    ensures LabelledValue(field, Some(name + ":" + v + ":" + rest)) == Ok(Some(Strip(v)))
  {
    SplitAtFirst(name, ':', v);
    SplitNoSeparator(v, ':');
    assert Split(name + ":" + v, ':') == [name, v];
    LabelledValueOfSecond(field, name + ":" + v, v);
    SplitThree(name, v, rest);
    LabelledValueOfSecond(field, name + ":" + v + ":" + rest, v);
  }

  /** The value is the second piece of the split, stripped. */
  lemma LabelledValueOfSecond(field: Field, s: string, v: string)
    requires |Split(s, ':')| >= 2 && Split(s, ':')[1] == v
    ensures LabelledValue(field, Some(s)) == Ok(Some(Strip(v)))
  {
  }

  /** `name:v:rest` splits into `name`, `v` and the pieces of `rest`. */
  lemma SplitThree(name: string, v: string, rest: string)
    requires ':' !in name && ':' !in v
    ensures Split(name + ":" + v + ":" + rest, ':') == [name, v] + Split(rest, ':')
  {
    var tail := v + [':'] + rest;
    SplitAtFirst(v, ':', rest);
    assert Split(tail, ':') == [v] + Split(rest, ':');
    SplitAtFirst(name, ':', tail);
    assert name + ":" + v + ":" + rest == name + [':'] + tail;
  }

  // ----------------------------------------------------------- experience

  /** The word the site writes for "no experience required". */
  const NoExperienceWord := "Без"

  /**
   * `get_experience_years`: `int(text.split()[0].replace("Без", "0"))`. There is no absent
   * case: a missing node, blank text and a non-numeric first word all raise.
   */
  function GetExperienceYears(text: Option<string>): (r: Result<int, Error>)
    ensures text.None? ==> r == Err(Error(ExperienceYears, NoneText))
    ensures r.Err? ==> r.error.field == ExperienceYears
  {
    match text
    case None => Err(Error(ExperienceYears, NoneText))
    case Some(s) =>
      var words := Words(s);
      if words == [] then Err(Error(ExperienceYears, NoFirstToken))
      else
        match ParseInt(Replace(words[0], NoExperienceWord, "0"))
        case None => Err(Error(ExperienceYears, NotAnInteger))
        case Some(n) => Ok(n)
  }

  /** `"Без досвіду"`: a first word of "Без" means zero years. */
  lemma ExperienceNoneRequired(lead: string, rest: string)
    requires All(lead, IsSpace)
    requires rest == [] || IsSpace(rest[0])
    ensures GetExperienceYears(Some(lead + NoExperienceWord + rest)) == Ok(0)
  {
    FirstWord(lead, NoExperienceWord, rest);
    ReplaceWhole(NoExperienceWord, "0");
    ParseIntDecimal(0);
  }

  /** `"3 роки досвіду"`: a first word that is a number gives that number. */
  lemma ExperienceNumber(lead: string, n: nat, rest: string)
    requires All(lead, IsSpace)
    requires rest == [] || IsSpace(rest[0])
    ensures GetExperienceYears(Some(lead + Decimal(n) + rest)) == Ok(n)
  {
    var d := Decimal(n);
    assert forall c :: IsDigit(c) ==> NotSpace(c);
    AllWeaken(d, IsDigit, NotSpace);
    FirstWord(lead, d, rest);
    assert NoExperienceWord[0] !in d by {
      forall i | 0 <= i < |d| ensures d[i] != NoExperienceWord[0] {
        assert IsDigit(d[i]);
      }
    }
    ContainsNeedsFirst(d, NoExperienceWord);
    ParseIntDecimal(n);
  }

  /**
   * `"п'ять років досвіду"`: a first word without `Б` that holds a character other than a
   * digit, an underscore or a leading sign is not an integer: `ValueError`.
   */
  lemma ExperienceNotANumber(lead: string, word: string, rest: string, i: nat)
    requires All(lead, IsSpace)
    requires word != [] && All(word, NotSpace) && 'Б' !in word
    requires rest == [] || IsSpace(rest[0])
    requires i < |word| && !IsDigit(word[i]) && word[i] != '_'
    requires i > 0 || (word[i] != '+' && word[i] != '-')
    ensures GetExperienceYears(Some(lead + word + rest)) == Err(Error(ExperienceYears, NotAnInteger))
  {
    FirstWord(lead, word, rest);
    assert NoExperienceWord[0] == 'Б';
    ContainsNeedsFirst(word, NoExperienceWord);
    ParseIntRejects(word, i);
  }

  /** Blank text has no first word: `IndexError`. */
  lemma ExperienceBlank(s: string)
    requires All(s, IsSpace)
    ensures GetExperienceYears(Some(s)) == Err(Error(ExperienceYears, NoFirstToken))
  {
    NoWords(s);
  }

  // -------------------------------------------------------------- country

  /** Every piece with its surrounding whitespace removed. */
  function StripEach(pieces: seq<string>): (r: seq<string>)
    ensures |r| == |pieces|
    ensures forall k :: 0 <= k < |r| ==> IsStripped(r[k])
  {
    seq(|pieces|, k requires 0 <= k < |pieces| => Strip(pieces[k]))
  }

  /** `get_country`: `sorted(c.strip() for c in text.strip().split(","))`; `None` when absent. */
  function GetCountry(text: Option<string>): (r: Option<seq<string>>)
    ensures r.None? <==> text.None?
    ensures r.Some? ==> Sorted(r.value)
  {
    match text
    case None => None
    case Some(s) => Some(Sort(StripEach(Split(Strip(s), ','))))
  }

  /**
   * The countries are the comma-separated pieces, each stripped, in ascending order: a
   * permutation of those pieces, one more than there are commas, none holding a comma or
   * outer whitespace.
   */
  lemma CountryPieces(s: string)
    ensures GetCountry(Some(s)).Some?
    ensures multiset(GetCountry(Some(s)).value) == multiset(StripEach(Split(Strip(s), ',')))
    ensures |GetCountry(Some(s)).value| == Count(s, ',') + 1
    ensures forall x :: x in GetCountry(Some(s)).value ==> ',' !in x && IsStripped(x)
  {
    var pieces := Split(Strip(s), ',');
    var stripped := StripEach(pieces);
    var r := GetCountry(Some(s)).value;
    StripKeepsCount(s, ',');
    SameLength(r, stripped);
    forall x | x in r ensures ',' !in x && IsStripped(x) {
      assert x in multiset(stripped);
      StrippedPiece(pieces, x);
    }
  }

  /** Sequences with the same elements have the same length. */
  lemma SameLength(a: seq<string>, b: seq<string>)
    requires multiset(a) == multiset(b)
    ensures |a| == |b|
  {
    assert |a| == |multiset(a)| && |b| == |multiset(b)|;
  }

  /** A stripped piece of a split holds no separator. */
  lemma StrippedPiece(pieces: seq<string>, x: string)
    requires forall k :: 0 <= k < |pieces| ==> ',' !in pieces[k]
    requires x in StripEach(pieces)
    ensures ',' !in x && IsStripped(x)
  {
    var stripped := StripEach(pieces);
    var k :| 0 <= k < |stripped| && stripped[k] == x;
    StripInside(pieces[k], ',');
  }

  lemma StripStripped(s: string)
    requires s != [] && IsStripped(s)
    ensures Strip(s) == s
  {
    assert s == [] + s + [];
    StripAround([], s, []);
  }

  lemma SplitPair(a: string, b: string)
    requires ',' !in a && ',' !in b
    ensures Split(a + ", " + b, ',') == [a, " " + b]
  {
    assert a + ", " + b == a + [','] + (" " + b);
    SplitAtFirst(a, ',', " " + b);
    assert ',' !in " " + b;
    SplitNoSeparator(" " + b, ',');
  }

  lemma PairStripped(a: string, b: string)
    requires a != [] && IsStripped(a)
    requires b != [] && IsStripped(b)
    ensures IsStripped(a + ", " + b)
  {
    var s := a + ", " + b;
    assert s[0] == a[0] && s[|s| - 1] == b[|b| - 1];
  }

  lemma StripAfterSpace(b: string)
    requires b != [] && IsStripped(b)
    ensures Strip(" " + b) == b
  {
    assert " " + b == " " + b + [];
    StripAround(" ", b, []);
  }

  lemma StripEachPair(a: string, b: string)
    ensures StripEach([a, b]) == [Strip(a), Strip(b)]
  {
  }

  /** `"A, B"` splits into the two stripped names. */
  lemma PairPieces(a: string, b: string)
    requires a != [] && IsStripped(a) && ',' !in a
    requires b != [] && IsStripped(b) && ',' !in b
    ensures StripEach(Split(Strip(a + ", " + b), ',')) == [a, b]
  {
    PairStripped(a, b);
    StripStripped(a + ", " + b);
    SplitPair(a, b);
    StripEachPair(a, " " + b);
    StripStripped(a);
    StripAfterSpace(b);
  }

  /** Two names sort into ascending order. */
  lemma SortPair(a: string, b: string)
    ensures Sort([a, b]) == if LessEq(a, b) then [a, b] else [b, a]
  {
    var expected := if LessEq(a, b) then [a, b] else [b, a];
    LessEqTotal(a, b);
    assert Sorted(expected);
    assert multiset(expected) == multiset([a, b]);
    SortedUnique(Sort([a, b]), expected);
  }

  /**
   * Two country names written `"A, B"` come back as the pair in ascending order:
   * `"Ukraine, Poland"` gives `["Poland", "Ukraine"]`.
   */
  lemma CountryPair(a: string, b: string)
    requires a != [] && IsStripped(a) && ',' !in a
    requires b != [] && IsStripped(b) && ',' !in b
    ensures GetCountry(Some(a + ", " + b)) == Some(if LessEq(a, b) then [a, b] else [b, a])
  {
    PairPieces(a, b);
    SortPair(a, b);
  }

  // ----------------------------------------------------- publication date

  /**
   * `get_publication_date` with the date pattern's letter class as a parameter: the first
   * `\d{1,2} L+ \d{4}` match among the muted elements, split into day, month word and
   * year; the month is 1 plus the word's first index in `months`. No match at all leaves
   * `None`, whose `.split()` raises `AttributeError`.
   */
  function PublicationDateWith(letter: char -> bool, months: seq<string>, muted: seq<string>): (r: Result<Date, Error>)
    ensures r.Ok? ==> IsValid(r.value) && r.value.month <= |months|
    ensures r.Err? ==> r.error.field == PublicationDate
    ensures ReFirst(muted, t => DateAt(letter, t)).None? ==> r == Err(Error(PublicationDate, NoneText))
    ensures ReFirst(muted, t => DateAt(letter, t)).Some? ==>
              r == DateFromText(months, ReFirst(muted, t => DateAt(letter, t)).value.Text())
  {
    match ReFirst(muted, t => DateAt(letter, t))
    case None => Err(Error(PublicationDate, NoneText))
    case Some(m) => DateFromText(months, m.Text())
  }

  /**
   * `day, month, year = text.split()` and `date(year=int(year), month=..., day=int(day))`.
   * Python evaluates `int(year)`, then `months.index(month)`, then `int(day)`, then `date(...)`.
   */
  function DateFromText(months: seq<string>, text: string): (r: Result<Date, Error>)
    ensures r.Ok? ==> IsValid(r.value) && r.value.month <= |months|
    ensures r.Err? ==> r.error.field == PublicationDate
  {
      var tokens := Words(text);
      if |tokens| != 3 then Err(Error(PublicationDate, WrongTokenCount))
      else
        match ParseInt(tokens[2])
        case None => Err(Error(PublicationDate, NotAnInteger))
        case Some(year) =>
          match IndexOf(months, tokens[1])
          case None => Err(Error(PublicationDate, UnknownMonth))
          case Some(index) =>
            match ParseInt(tokens[0])
            case None => Err(Error(PublicationDate, NotAnInteger))
            case Some(day) =>
              match MakeDate(year, index + 1, day)
              case None => Err(Error(PublicationDate, InvalidDate))
              case Some(d) => Ok(d)
  }

  /** `get_publication_date` exactly as written: the month word must match `[а-я]+`. */
  function GetPublicationDateAsWritten(months: seq<string>, muted: seq<string>): (r: Result<Date, Error>)
    ensures r.Ok? ==> IsValid(r.value) && r.value.month <= |months|
    ensures r.Err? ==> r.error.field == PublicationDate
  {
    PublicationDateWith(IsRangeLetter, months, muted)
  }

  /** `get_publication_date` with the month word matched by the Ukrainian lowercase letters. */
  function GetPublicationDate(months: seq<string>, muted: seq<string>): (r: Result<Date, Error>)
    ensures r.Ok? ==> IsValid(r.value) && r.value.month <= |months|
    ensures r.Err? ==> r.error.field == PublicationDate
  {
    PublicationDateWith(IsMonthLetter, months, muted)
  }

  /**
   * What a matched date text reads as: a month word missing from `months` raises
   * `ValueError` from `index`; otherwise the date is the year's value, 1 plus the word's
   * first index, and the day's value, and `date(...)` raises when that is not a real day.
   */
  lemma DateFromMatch(letter: char -> bool, months: seq<string>, m: DateMatch)
    requires m.WellFormed(letter)
    requires forall c :: letter(c) ==> NotSpace(c)
    ensures m.word !in months ==> DateFromText(months, m.Text()) == Err(Error(PublicationDate, UnknownMonth))
    ensures m.word in months ==>
              var d := Date(DecimalValue(m.year), IndexOf(months, m.word).value + 1, DecimalValue(m.day));
              DateFromText(months, m.Text()) == if IsValid(d) then Ok(d) else Err(Error(PublicationDate, InvalidDate))
  {
    DateMatchWords(m, letter);
    ParseIntDigits(m.year);
    ParseIntDigits(m.day);
  }

  /** The match `re_first` returns is a well-formed date text. */
  lemma FoundDateWellFormed(letter: char -> bool, muted: seq<string>, m: DateMatch)
    requires ReFirst(muted, t => DateAt(letter, t)) == Some(m)
    ensures m.WellFormed(letter)
  {
    var at := t => DateAt(letter, t);
    var k :| 0 <= k < |muted| && Search(muted[k], at) == Some(m);
    var i :| 0 <= i <= |muted[k]| && at(muted[k][i..]) == Some(m);
  }

  /**
   * `get_publication_date` on the first date match: `ValueError` for a month word missing
   * from `months`, otherwise the date it spells, or `ValueError` when that day does not exist.
   */
  lemma PublicationDateOfMatch(letter: char -> bool, months: seq<string>, muted: seq<string>, m: DateMatch)
    requires forall c :: letter(c) ==> NotSpace(c)
    requires ReFirst(muted, t => DateAt(letter, t)) == Some(m)
    ensures m.WellFormed(letter)
    ensures m.word !in months ==> PublicationDateWith(letter, months, muted) == Err(Error(PublicationDate, UnknownMonth))
    ensures m.word in months ==>
              var d := Date(DecimalValue(m.year), IndexOf(months, m.word).value + 1, DecimalValue(m.day));
              PublicationDateWith(letter, months, muted) == if IsValid(d) then Ok(d) else Err(Error(PublicationDate, InvalidDate))
  {
    FoundDateWellFormed(letter, muted, m);
    DateFromMatch(letter, months, m);
  }

  /** How the page writes a date: `"5 травня 2023"`. */
  function DateText(d: Date, word: string): string
    requires 1 <= d.day && 1 <= d.year
  {
    Decimal(d.day) + " " + word + " " + Decimal(d.year)
  }

  lemma IndexOfFirst(months: seq<string>, k: nat)
    requires k < |months| && months[k] !in months[..k]
    ensures IndexOf(months, months[k]) == Some(k)
  {
    var r := IndexOf(months, months[k]);
    assert r.Some?;
  }

  /** A date text after digit-free text is the element's first match. */
  lemma ElementMatches(letter: char -> bool, m: DateMatch, pre: string, post: string)
    requires m.WellFormed(letter) && !letter(' ')
    requires forall i :: 0 <= i < |pre| ==> !IsDigit(pre[i])
    ensures Search(pre + m.Text() + post, t => DateAt(letter, t)) == Some(m)
  {
    var at := t => DateAt(letter, t);
    var s := pre + m.Text() + post;
    assert s == pre + (m.Text() + post);
    assert s[|pre|..] == m.Text() + post;
    DateAtText(letter, m, post);
    forall j | 0 <= j < |pre| ensures at(s[j..]).None? {
      assert s[j..][0] == pre[j];
      NoDateWithoutDigit(letter, s[j..]);
    }
    SearchLeftmost(s, at, |pre|);
  }

  /** An element holding a date after digit-free text is what `re_first` returns when no earlier element matches. */
  lemma FirstDateElement(letter: char -> bool, m: DateMatch, earlier: seq<string>, pre: string, post: string, more: seq<string>)
    requires m.WellFormed(letter) && !letter(' ')
    requires forall k :: 0 <= k < |earlier| ==> Search(earlier[k], t => DateAt(letter, t)).None?
    requires forall i :: 0 <= i < |pre| ==> !IsDigit(pre[i])
    ensures ReFirst(earlier + [pre + m.Text() + post] + more, t => DateAt(letter, t)) == Some(m)
  {
    var at := t => DateAt(letter, t);
    var rest := [pre + m.Text() + post] + more;
    ElementMatches(letter, m, pre, post);
    assert ReFirst(rest, at) == Some(m);
    assert earlier + [pre + m.Text() + post] + more == earlier + rest;
    ReFirstSkip(earlier, rest, at);
  }

  /**
   * Reading a date the page writes with a vocabulary word gives that date back: the
   * elements before it hold no date, digit-free text may stand before it, and the word is
   * made of the class's letters and is the first entry with its spelling.
   */
  lemma PublicationDateRoundTrip(letter: char -> bool, months: seq<string>, d: Date,
                                 earlier: seq<string>, pre: string, post: string, more: seq<string>)
    requires forall c :: letter(c) ==> NotSpace(c)
    requires IsValid(d) && 1000 <= d.year && d.month <= |months|
    requires months[d.month - 1] != [] && All(months[d.month - 1], letter)
    requires months[d.month - 1] !in months[..d.month - 1]
    requires forall k :: 0 <= k < |earlier| ==> Search(earlier[k], t => DateAt(letter, t)).None?
    requires forall i :: 0 <= i < |pre| ==> !IsDigit(pre[i])
    ensures PublicationDateWith(letter, months, earlier + [pre + DateText(d, months[d.month - 1]) + post] + more) == Ok(d)
  {
    var word := months[d.month - 1];
    DecimalLength(d.day);
    DecimalLength(d.year);
    var m := DateMatch(Decimal(d.day), word, Decimal(d.year));
    assert m.Text() == DateText(d, word);
    assert m.WellFormed(letter);
    FirstDateElement(letter, m, earlier, pre, post, more);
    DateTextReads(letter, months, d, m);
  }

  /** The date's own text reads back as the date. */
  lemma DateTextReads(letter: char -> bool, months: seq<string>, d: Date, m: DateMatch)
    requires forall c :: letter(c) ==> NotSpace(c)
    requires IsValid(d) && d.month <= |months| && months[d.month - 1] !in months[..d.month - 1]
    requires m == DateMatch(Decimal(d.day), months[d.month - 1], Decimal(d.year)) && m.WellFormed(letter)
    ensures DateFromText(months, m.Text()) == Ok(d)
  {
    IndexOfFirst(months, d.month - 1);
    DecimalRoundTrip(d.day);
    DecimalRoundTrip(d.year);
    assert m.word in months && IndexOf(months, m.word) == Some(d.month - 1);
    assert Date(DecimalValue(m.year), IndexOf(months, m.word).value + 1, DecimalValue(m.day)) == d;
    DateFromMatch(letter, months, m);
  }

  /** Neither letter class holds whitespace. */
  lemma LettersAreNotSpace()
    ensures forall c :: IsRangeLetter(c) ==> NotSpace(c)
    ensures forall c :: IsMonthLetter(c) ==> NotSpace(c)
  {
  }

  /** `"5 травня 2023"` with "травня" as month 5 gives 2023-05-05, "травня" lying inside `[а-я]`. */
  lemma PublicationDateExample(months: seq<string>)
    requires |months| == 12 && months[4] == "травня" && "травня" !in months[..4]
    ensures GetPublicationDateAsWritten(months, ["5 травня 2023"]) == Ok(Date(2023, 5, 5))
  {
    var d := Date(2023, 5, 5);
    LettersAreNotSpace();
    assert All("травня", IsRangeLetter);
    assert Decimal(5) == "5";
    assert Decimal(2023) == "2023" by {
      assert Decimal(2) == "2" && Decimal(20) == "20" && Decimal(202) == "202";
    }
    assert "" + DateText(d, "травня") + "" == "5 травня 2023";
    assert ["5 травня 2023"] == [] + ["" + DateText(d, months[4]) + ""] + [];
    PublicationDateRoundTrip(IsRangeLetter, months, d, [], "", "", []);
  }

  /** `"31 лютого 2023"` is matched, but 31 February does not exist: `date(...)` raises. */
  lemma FebruaryThirtyFirst(months: seq<string>)
    requires |months| == 12 && months[1] == "лютого" && "лютого" !in months[..1]
    ensures GetPublicationDateAsWritten(months, ["31 лютого 2023"]) == Err(Error(PublicationDate, InvalidDate))
  {
    var m := DateMatch("31", months[1], "2023");
    LettersAreNotSpace();
    FebruaryThirtyFirstFound(months, "31 лютого 2023");
    PublicationDateOfMatch(IsRangeLetter, months, ["31 лютого 2023"], m);
    IndexOfFirst(months, 1);
    FebruaryThirtyFirstValues();
    assert !IsValid(Date(2023, 2, 31));
  }

  /** `re_first` finds the whole text "31 лютого 2023". */
  lemma FebruaryThirtyFirstFound(months: seq<string>, element: string)
    requires |months| == 12 && months[1] == "лютого" && element == "31 лютого 2023"
    ensures ReFirst([element], t => DateAt(IsRangeLetter, t)) == Some(DateMatch("31", months[1], "2023"))
  {
    var m := DateMatch("31", months[1], "2023");
    FebruaryThirtyFirstText(months[1]);
    assert m.Text() == element;
    FebruaryThirtyFirstWellFormed(months[1]);
    FirstDateElement(IsRangeLetter, m, [], "", "", []);
    var e := "" + m.Text() + "";
    assert e == m.Text();
    assert [] + [e] + [] == [e];
  }

  /** The match is a well-formed `[а-я]` date. */
  lemma FebruaryThirtyFirstWellFormed(word: string)
    requires word == "лютого"
    ensures DateMatch("31", word, "2023").WellFormed(IsRangeLetter)
  {
    assert All(word, IsRangeLetter);
  }

  /** The match's text, spelt out. */
  lemma FebruaryThirtyFirstText(word: string)
    requires word == "лютого"
    ensures "31" + " " + word + " " + "2023" == "31 лютого 2023"
  {
  }

  /** The day reads as 31 and the year as 2023. */
  lemma FebruaryThirtyFirstValues()
    ensures DecimalValue("31") == 31 && DecimalValue("2023") == 2023
  {
    assert "31"[..1] == "3" && "3"[..0] == "";
    assert "2023"[..3] == "202" && "202"[..2] == "20" && "20"[..1] == "2" && "2"[..0] == "";
  }

  /**
   * As written, the month class `[а-я]` stops at `і`, so "1 квітня 2023" (1 April) holds
   * no match at all: `re_first` gives `None` and `.split()` on it raises.
   */
  lemma AprilRejectedAsWritten(months: seq<string>)
    ensures GetPublicationDateAsWritten(months, [AprilFirst]) == Err(Error(PublicationDate, NoneText))
  {
    var at := t => DateAt(IsRangeLetter, t);
    forall i | 0 <= i <= |AprilFirst| ensures at(AprilFirst[i..]).None? {
      AprilNoMatchAt(i);
    }
  }

  /** 1 April 2023 as the page writes it. */
  const AprilFirst := "1 квітня 2023"

  /** No position of "1 квітня 2023" starts a `[а-я]` date. */
  lemma AprilNoMatchAt(i: nat)
    requires i <= |AprilFirst|
    ensures DateAt(IsRangeLetter, AprilFirst[i..]).None?
  {
    if i == 0 {
      AprilNoMatchAtStart();
    } else if i < 9 {
      NoDateWithoutDigit(IsRangeLetter, AprilFirst[i..]);
    } else {
      NoDateInDigits(IsRangeLetter, AprilFirst[i..]);
    }
  }

  /** At the start, the letter run "кв" ends at `і`, which is not a space. */
  lemma AprilNoMatchAtStart()
    ensures DateAt(IsRangeLetter, AprilFirst).None?
  {
    var u := AprilFirst[2..];
    assert DayDigits(AprilFirst) == 1 && AprilFirst[1] == ' ';
    assert u[..2] == "кв" && u[2] == 'і';
    WordBrokenAt(IsRangeLetter, u, 2);
  }

  /** A letter run that meets a character other than a space cannot be followed by a year. */
  lemma WordBrokenAt(letter: char -> bool, u: string, k: nat)
    requires k < |u| && All(u[..k], letter) && !letter(u[k]) && u[k] != ' '
    ensures WordYearAt(letter, u).None?
  {
    assert u == u[..k] + u[k..];
    LeadLenOfRun(u[..k], u[k..], letter);
  }

  /** No date starts at a character that is not a digit. */
  lemma NoDateWithoutDigit(letter: char -> bool, t: string)
    requires t != [] && !IsDigit(t[0])
    ensures DateAt(letter, t).None?
  {
  }

  /** No date lies within digits alone. */
  lemma NoDateInDigits(letter: char -> bool, t: string)
    requires All(t, IsDigit)
    ensures DateAt(letter, t).None?
  {
    var n := DayDigits(t);
    if 0 < n < |t| {
      AllAt(t, IsDigit, n);
    }
  }

  /** With the month letters that `[а-я]` leaves out, "1 квітня 2023" is 1 April 2023. */
  lemma AprilAccepted(months: seq<string>)
    requires |months| == 12 && months[3] == "квітня" && "квітня" !in months[..3]
    ensures GetPublicationDate(months, ["1 квітня 2023"]) == Ok(Date(2023, 4, 1))
  {
    var d := Date(2023, 4, 1);
    LettersAreNotSpace();
    assert All("квітня", IsMonthLetter);
    assert Decimal(1) == "1";
    assert Decimal(2023) == "2023" by {
      assert Decimal(2) == "2" && Decimal(20) == "20" && Decimal(202) == "202";
    }
    assert "" + DateText(d, "квітня") + "" == "1 квітня 2023";
    assert ["1 квітня 2023"] == [] + ["" + DateText(d, months[3]) + ""] + [];
    PublicationDateRoundTrip(IsMonthLetter, months, d, [], "", "", []);
  }

  // ---------------------------------------------------------- technologies

  /** `a` is `b` with some entries left out, the rest kept in order. */
  predicate IsSubsequence<T(==)>(a: seq<T>, b: seq<T>)
    decreases |b|
  {
    a == [] || (b != [] && ((a[0] == b[0] && IsSubsequence(a[1..], b[1..])) || IsSubsequence(a, b[1..])))
  }

  /**
   * The vocabulary entries whose lowercase form occurs in `lowered`, in vocabulary order:
   * a subsequence of the vocabulary that keeps exactly the entries that occur.
   */
  function Mentioned(vocabulary: seq<string>, lowered: string): (r: seq<string>)
    ensures IsSubsequence(r, vocabulary)
    ensures |r| <= |vocabulary|
    ensures forall t :: t in r <==> t in vocabulary && Contains(lowered, Lower(t))
  {
    if vocabulary == [] then []
    else
      var rest := Mentioned(vocabulary[1..], lowered);
      assert forall t :: t in vocabulary <==> t == vocabulary[0] || t in vocabulary[1..];
      if Contains(lowered, Lower(vocabulary[0])) then [vocabulary[0]] + rest else rest
  }

  /** Filtering a vocabulary in two parts is filtering each part. */
  lemma {:induction false} MentionedAppend(a: seq<string>, b: seq<string>, lowered: string)
    ensures Mentioned(a + b, lowered) == Mentioned(a, lowered) + Mentioned(b, lowered)
  {
    if a == [] {
      assert a + b == b;
    } else {
      assert (a + b)[0] == a[0];
      assert (a + b)[1..] == a[1..] + b;
      MentionedAppend(a[1..], b, lowered);
    }
  }

  /**
   * `get_technologies`: the vocabulary filtered by case-insensitive containment in the
   * description's markup. A missing description raises `AttributeError`.
   */
  function GetTechnologies(vocabulary: seq<string>, description: Option<string>): (r: Result<seq<string>, Error>)
    ensures r.Err? <==> description.None?
    ensures r.Err? ==> r.error == Error(Technologies, NoneText)
    ensures r.Ok? ==> IsSubsequence(r.value, vocabulary)
    ensures r.Ok? ==> forall t :: t in r.value <==> t in vocabulary && Contains(Lower(description.value), Lower(t))
  {
    match description
    case None => Err(Error(Technologies, NoneText))
    case Some(d) => Ok(Mentioned(vocabulary, Lower(d)))
  }

  /** Only the lowercase form of the description matters. */
  lemma TechnologiesIgnoreCase(vocabulary: seq<string>, d: string)
    ensures GetTechnologies(vocabulary, Some(d)) == GetTechnologies(vocabulary, Some(Lower(d)))
  {
    LowerIdempotent(d);
  }
}

=== FILE: numbers.dfy ===
/**
 * Decimal digits and Python's `int(text)` on the tokens the spider feeds it.
 * Digits are the ASCII digits `0`-`9`.
 */
module Numbers {
  import opened Wrappers
  import opened Scan

  predicate IsDigit(c: char) {
    '0' <= c <= '9'
  }

  function DigitValue(c: char): (d: nat)
    requires IsDigit(c)
    ensures d < 10
  {
    c as int - '0' as int
  }

  function DigitChar(d: nat): (c: char)
    requires d < 10
    ensures IsDigit(c) && DigitValue(c) == d
  {
    ('0' as int + d) as char
  }

  /** The value of a string of decimal digits, most significant first; leading zeros are allowed. */
  function DecimalValue(s: string): nat
    requires All(s, IsDigit)
  {
    if s == [] then 0 else DecimalValue(s[..|s| - 1]) * 10 + DigitValue(s[|s| - 1])
  }

  /** The decimal rendering of `n` without leading zeros, as Python's `str(n)` gives it. */
  function Decimal(n: nat): (s: string)
    ensures s != [] && All(s, IsDigit)
  {
    if n < 10 then [DigitChar(n)] else Decimal(n / 10) + [DigitChar(n % 10)]
  }

  /** Reading back a rendered number gives the number. */
  lemma {:induction false} DecimalRoundTrip(n: nat)
    ensures DecimalValue(Decimal(n)) == n
  {
    if n >= 10 {
      DecimalRoundTrip(n / 10);
      var s := Decimal(n);
      assert s[..|s| - 1] == Decimal(n / 10);
    }
  }

  /** Days have one or two digits and four-digit years have four. */
  lemma DecimalLength(n: nat)
    ensures n < 10 ==> |Decimal(n)| == 1
    ensures 10 <= n < 100 ==> |Decimal(n)| == 2
    ensures 100 <= n < 1000 ==> |Decimal(n)| == 3
    ensures 1000 <= n < 10000 ==> |Decimal(n)| == 4
  {
    if n >= 10 {
      DecimalLength(n / 10);
    }
  }

  /**
   * The digit part `int()` accepts: decimal digits, where a single underscore may stand
   * between two digits.
   */
  predicate IsDigitGroups(t: string) {
    && t != []
    && IsDigit(t[0])
    && IsDigit(t[|t| - 1])
    && (forall i :: 0 <= i < |t| ==> IsDigit(t[i]) || t[i] == '_')
    && (forall i :: 0 < i < |t| && t[i] == '_' ==> t[i - 1] != '_')
  }

  /**
   * Python's `int(t)` for a token with no whitespace in it: an optional sign, then digit
   * groups. `None` is the `ValueError` Python raises.
   */
  function ParseInt(t: string): (r: Option<int>)
    ensures r.Some? ==> t != []
    ensures r.Some? ==> forall i :: 0 <= i < |t| ==>
              IsDigit(t[i]) || t[i] == '_' || (i == 0 && (t[i] == '+' || t[i] == '-'))
  {
    if t != [] && (t[0] == '+' || t[0] == '-') then
      var body := t[1..];
      if IsDigitGroups(body) then
        var n: int := DecimalValue(Filter(body, IsDigit));
        Some(if t[0] == '-' then -n else n)
      else None
    else if IsDigitGroups(t) then Some(DecimalValue(Filter(t, IsDigit)))
    else None
  }

  /** A non-empty run of digits is read as its decimal value; leading zeros are allowed. */
  lemma ParseIntDigits(t: string)
    requires t != [] && All(t, IsDigit)
    ensures ParseInt(t) == Some(DecimalValue(t))
  {
    AllAt(t, IsDigit, 0);
    AllAt(t, IsDigit, |t| - 1);
    assert forall i :: 0 <= i < |t| ==> IsDigit(t[i]);
    FilterAll(t, IsDigit);
  }

  /** `int(str(n)) == n` and `int("-" + str(n)) == -n`. */
  lemma ParseIntDecimal(n: nat)
    ensures ParseInt(Decimal(n)) == Some(n)
    ensures ParseInt("-" + Decimal(n)) == Some(-(n as int))
  {
    var s := Decimal(n);
    FilterAll(s, IsDigit);
    DecimalRoundTrip(n);
    assert ("-" + s)[1..] == s;
  }

  /** A token that holds a character other than a digit, an underscore or a leading sign is refused. */
  lemma {:induction false} ParseIntRejects(t: string, i: nat)
    requires i < |t| && !IsDigit(t[i]) && t[i] != '_'
    requires i > 0 || (t[i] != '+' && t[i] != '-')
    ensures ParseInt(t) == None
  {
    if t[0] == '+' || t[0] == '-' {
      assert t[1..][i - 1] == t[i];
    }
  }

  /** The empty token is refused. */
  lemma ParseIntEmpty()
    ensures ParseInt("") == None
  {
  }

  /** Underscores between digit groups are skipped: `int("1_000") == 1000`. */
  lemma ParseIntGroups()
    ensures ParseInt("1_000") == Some(1000)
  {
    assert IsDigitGroups("1_000");
    assert Filter("1_000", IsDigit) == "1000";
    assert "1000"[..3] == "100" && "100"[..2] == "10" && "10"[..1] == "1" && "1"[..0] == "";
    assert DecimalValue("1000") == 1000;
  }
}

=== FILE: patterns.dfy ===
/**
 * The three regular expressions the spider applies to the `.text-muted` elements,
 * written out as matchers. None of them has an anchor or a look-behind, so whether a
 * pattern matches at index `i` of `s` depends only on the suffix `s[i..]`; a matcher
 * therefore looks at the start of a string and reports what the match returns.
 */
module Patterns {
  import opened Wrappers
  import opened Scan
  import opened Numbers
  import opened Strings

  /** `re.search`: the leftmost index where `at` matches, and what it returns there. */
  function Search<M>(s: string, at: string -> Option<M>): (r: Option<M>)
    ensures r.Some? ==> exists i :: 0 <= i <= |s| && at(s[i..]) == r
    ensures r.None? ==> forall i :: 0 <= i <= |s| ==> at(s[i..]).None?
    decreases |s|
  {
    if at(s).Some? then
      assert s[0..] == s;
      at(s)
    else if s == [] then None
    else
      var r := Search(s[1..], at);
      assert forall i :: 1 <= i <= |s| ==> s[1..][i - 1..] == s[i..];
      r
  }

  /** The search returns the match at the leftmost index where there is one. */
  lemma {:induction false} SearchLeftmost<M>(s: string, at: string -> Option<M>, i: nat)
    requires i <= |s| && at(s[i..]).Some?
    requires forall j :: 0 <= j < i ==> at(s[j..]).None?
    ensures Search(s, at) == at(s[i..])
  {
    if i == 0 {
      assert s[0..] == s;
    } else {
      assert s[0..] == s;
      assert s[1..][i - 1..] == s[i..];
      forall j | 0 <= j < i - 1 ensures at(s[1..][j..]).None? {
        assert s[1..][j..] == s[j + 1..];
      }
      SearchLeftmost(s[1..], at, i - 1);
    }
  }

  /**
   * `SelectorList.re_first(pattern)`: the first match in the first selected element, in
   * document order, that has one; `None` when no element does.
   */
  function ReFirst<M>(elements: seq<string>, at: string -> Option<M>): (r: Option<M>)
    ensures r.Some? ==> exists k :: && 0 <= k < |elements| && Search(elements[k], at) == r
                                  && forall j :: 0 <= j < k ==> Search(elements[j], at).None?
    ensures r.None? ==> forall k :: 0 <= k < |elements| ==> Search(elements[k], at).None?
  {
    if elements == [] then None
    else if Search(elements[0], at).Some? then Search(elements[0], at)
    else
      var r := ReFirst(elements[1..], at);
      assert forall k :: 1 <= k < |elements| ==> elements[1..][k - 1] == elements[k];
      if r.Some? then
        FirstMatchShifts(elements, r, at);
        r
      else r
  }

  /** A first match in the elements after one without a match is the first match in all of them. */
  lemma FirstMatchShifts<M>(elements: seq<string>, r: Option<M>, at: string -> Option<M>)
    requires elements != [] && Search(elements[0], at).None?
    requires exists k :: && 0 <= k < |elements[1..]| && Search(elements[1..][k], at) == r
                         && forall j :: 0 <= j < k ==> Search(elements[1..][j], at).None?
    ensures exists k :: && 0 <= k < |elements| && Search(elements[k], at) == r
                        && forall j :: 0 <= j < k ==> Search(elements[j], at).None?
  {
    var k :| && 0 <= k < |elements[1..]| && Search(elements[1..][k], at) == r
             && forall j :: 0 <= j < k ==> Search(elements[1..][j], at).None?;
    assert Search(elements[k + 1], at) == r;
    forall j | 0 <= j < k + 1 ensures Search(elements[j], at).None? {
      if j > 0 {
        assert elements[j] == elements[1..][j - 1];
      }
    }
  }

  /** Elements without a match before the rest do not change what `re_first` returns. */
  lemma {:induction false} ReFirstSkip<M>(earlier: seq<string>, rest: seq<string>, at: string -> Option<M>)
    requires forall k :: 0 <= k < |earlier| ==> Search(earlier[k], at).None?
    ensures ReFirst(earlier + rest, at) == ReFirst(rest, at)
  {
    if earlier != [] {
      assert (earlier + rest)[0] == earlier[0];
      assert (earlier + rest)[1..] == earlier[1..] + rest;
      ReFirstSkip(earlier[1..], rest, at);
    } else {
      assert earlier + rest == rest;
    }
  }

  /**
   * `(\d+)<suffix>` at the start of `t`, returning the digits of group 1. The suffixes used
   * start with a space, so the greedy digit run is the only one that can be followed by
   * the suffix.
   */
  function CountAt(suffix: string, t: string): (r: Option<string>)
    ensures r.Some? ==> r.value != [] && All(r.value, IsDigit)
    ensures r.Some? ==> r.value + suffix <= t
  {
    var k := LeadLen(t, IsDigit);
    if k > 0 && suffix <= t[k..] then
      assert t[..k] + suffix <= t by {
        assert t == t[..k] + t[k..];
      }
      Some(t[..k])
    else None
  }

  /**
   * The converse: a non-empty digit run followed by the suffix is matched, and its digits
   * are the group, leading zeros included.
   */
  lemma CountAtText(suffix: string, d: string, t: string)
    requires suffix != [] && !IsDigit(suffix[0])
    requires d != [] && All(d, IsDigit)
    requires d + suffix <= t
    ensures CountAt(suffix, t) == Some(d)
  {
    var rest := t[|d|..];
    assert t == d + rest;
    assert rest[..|suffix|] == suffix;
    LeadLenOfRun(d, rest, IsDigit);
    assert t[..|d|] == d;
  }

  /** No count match starts inside `x` when `x` is followed by `y`. */
  predicate NoCountIn(suffix: string, x: string, y: string) {
    forall i :: 0 <= i < |x| ==> CountAt(suffix, (x + y)[i..]).None?
  }

  /** No count match starts at a character that is not a digit. */
  lemma NoCountInText(suffix: string, x: string, y: string)
    requires forall i :: 0 <= i < |x| ==> !IsDigit(x[i])
    ensures NoCountIn(suffix, x, y)
  {
    forall i | 0 <= i < |x| ensures CountAt(suffix, (x + y)[i..]).None? {
      assert (x + y)[i..][0] == x[i];
    }
  }

  /** Digits whose run is not followed by the suffix start no count match. */
  lemma NoCountInRun(suffix: string, run: string, y: string)
    requires All(run, IsDigit)
    requires y != [] && !IsDigit(y[0]) && !(suffix <= y)
    ensures NoCountIn(suffix, run, y)
  {
    forall i | 0 <= i < |run| ensures CountAt(suffix, (run + y)[i..]).None? {
      var t := (run + y)[i..];
      assert t == run[i..] + y;
      LeadLenOfRun(run[i..], y, IsDigit);
      assert t[|run| - i..] == y;
    }
  }

  /** Two stretches without a count match start make one. */
  lemma NoCountJoin(suffix: string, x: string, y: string, z: string)
    requires NoCountIn(suffix, x, y + z) && NoCountIn(suffix, y, z)
    ensures NoCountIn(suffix, x + y, z)
  {
    assert (x + y) + z == x + (y + z);
    forall i | 0 <= i < |x + y| ensures CountAt(suffix, ((x + y) + z)[i..]).None? {
      if i >= |x| {
        assert ((x + y) + z)[i..] == (y + z)[i - |x|..];
      }
    }
  }

  /** No count match starts inside a date text and the `" · "` after it. */
  lemma NoCountInDate(suffix: string, letter: char -> bool, m: DateMatch, tail: string)
    requires |suffix| >= 2 && suffix[1] != '·' && ' ' !in suffix[1..]
    requires m.WellFormed(letter) && forall c :: letter(c) ==> !IsDigit(c)
    requires !(suffix[1..] <= m.word)
    ensures NoCountIn(suffix, m.Text() + " · ", tail)
  {
    var t1 := " " + (m.year + " · ");
    NoCountInYear(suffix, m.year, tail);
    NoCountInText(suffix, " ", (m.year + " · ") + tail);
    NoCountJoin(suffix, " ", m.year + " · ", tail);
    forall i | 0 <= i < |m.word| ensures !IsDigit(m.word[i]) {
      AllAt(m.word, letter, i);
    }
    NoCountInText(suffix, m.word, t1 + tail);
    NoCountJoin(suffix, m.word, t1, tail);
    var t0 := m.word + t1;
    NoCountInText(suffix, " ", t0 + tail);
    NoCountJoin(suffix, " ", t0, tail);
    var u := " " + t0;
    assert u + tail == " " + m.word + " " + ((m.year + " · ") + tail);
    SuffixNotAfterWord(suffix, m.word, (m.year + " · ") + tail);
    NoCountInRun(suffix, m.day, u + tail);
    NoCountJoin(suffix, m.day, u, tail);
    assert m.day + u == m.Text() + " · ";
  }

  /**
   * A suffix made of a space and one word is not at the start of `" " + word + " " + rest`
   * unless that word begins `word`.
   */
  lemma SuffixNotAfterWord(suffix: string, word: string, rest: string)
    requires suffix != [] && ' ' !in suffix[1..] && !(suffix[1..] <= word)
    ensures !(suffix <= " " + word + " " + rest)
  {
    var x := " " + word + " " + rest;
    var s1, y := suffix[1..], x[1..];
    assert y == word + " " + rest;
    if |s1| <= |word| {
      assert y[..|s1|] == word[..|s1|];
      assert s1 != y[..|s1|];
    } else {
      assert y[|word|] == ' ';
      assert s1[|word|] != ' ';
    }
    assert suffix <= x ==> s1 <= y;
  }

  /** No count match starts inside a year followed by `" · "`. */
  lemma NoCountInYear(suffix: string, year: string, tail: string)
    requires |suffix| >= 2 && suffix[1] != '·'
    requires All(year, IsDigit)
    ensures NoCountIn(suffix, year + " · ", tail)
  {
    var dot := " · ";
    var after := dot + tail;
    assert after[0] == ' ' && after[1] == '·';
    NoCountInText(suffix, dot, tail);
    NoCountInRun(suffix, year, after);
    NoCountJoin(suffix, year, dot, tail);
  }

  /** The count pattern of `views_count`. */
  const ViewsSuffix := " перегляд"

  /** The count pattern of `applicant_count`. */
  const ApplicantsSuffix := " відгук"

  /**
   * A number written in front of the suffix, with no digit before it, is what the count
   * pattern returns.
   */
  lemma CountRoundTrip(suffix: string, pre: string, n: nat, post: string)
    requires suffix != [] && !IsDigit(suffix[0])
    requires forall i :: 0 <= i < |pre| ==> !IsDigit(pre[i])
    ensures Search(pre + Decimal(n) + suffix + post, t => CountAt(suffix, t)) == Some(Decimal(n))
  {
    var d := Decimal(n);
    var s := pre + d + suffix + post;
    var at := t => CountAt(suffix, t);
    forall j | 0 <= j < |pre| ensures at(s[j..]).None? {
      assert s[j..][0] == pre[j];
    }
    var t := s[|pre|..];
    assert t == d + (suffix + post);
    LeadLenStops(d, suffix + post, IsDigit);
    assert LeadLen(d, IsDigit) == |d|;
    assert t[..|d|] == d && t[|d|..] == suffix + post;
    assert at(t) == Some(d);
    SearchLeftmost(s, at, |pre|);
  }

  /** What the date pattern `\d{1,2} L+ \d{4}` matched, piece by piece. */
  datatype DateMatch = DateMatch(day: string, word: string, year: string) {
    /** The matched text, as `re_first` returns it. */
    function Text(): string {
      day + " " + word + " " + year
    }

    predicate WellFormed(letter: char -> bool) {
      && 1 <= |day| <= 2 && All(day, IsDigit)
      && word != [] && All(word, letter)
      && |year| == 4 && All(year, IsDigit)
    }
  }

  /** The class `[а-я]` as the pattern writes it: the code points U+0430 to U+044F. */
  predicate IsRangeLetter(c: char) {
    'а' <= c <= 'я'
  }

  /**
   * The letters of Ukrainian month names in the genitive: `[а-я]` together with `є`, `і`,
   * `ї` and `ґ`, which lie outside that range.
   */
  predicate IsMonthLetter(c: char) {
    IsRangeLetter(c) || c == 'є' || c == 'і' || c == 'ї' || c == 'ґ'
  }

  /** How many digits `\d{1,2}` takes at the start of `t`: two when there are two. */
  function DayDigits(t: string): (n: nat)
    ensures n <= 2 && n <= |t| && All(t[..n], IsDigit)
  {
    if |t| >= 2 && IsDigit(t[0]) && IsDigit(t[1]) then 2
    else if |t| >= 1 && IsDigit(t[0]) then 1
    else 0
  }

  /** ` L+ \d{4}` without its leading space: the letter run and the year after it. */
  function WordYearAt(letter: char -> bool, u: string): (r: Option<(string, string)>)
    ensures r.Some? ==> r.value.0 != [] && All(r.value.0, letter)
    ensures r.Some? ==> |r.value.1| == 4 && All(r.value.1, IsDigit)
    ensures r.Some? ==> r.value.0 + " " + r.value.1 <= u
  {
    var w := LeadLen(u, letter);
    if w == 0 || w >= |u| || u[w] != ' ' then None
    else
      var v := u[w + 1..];
      if |v| < 4 || !All(v[..4], IsDigit) then None
      else
        assert u[..w] + " " + v[..4] == u[..w + 5];
        Some((u[..w], v[..4]))
  }

  /**
   * `\d{1,2} L+ \d{4}` at the start of `t`, `L` being the class `letter` (a class without
   * the space). The day takes two digits when there are two; backtracking to one digit
   * cannot help, as a digit would then have to be a space. Likewise the letter run is
   * the longest one.
   */
  function DateAt(letter: char -> bool, t: string): (r: Option<DateMatch>)
    ensures r.Some? ==> r.value.WellFormed(letter) && r.value.Text() <= t
  {
    var n := DayDigits(t);
    if n == 0 || n >= |t| || t[n] != ' ' then None
    else
      match WordYearAt(letter, t[n + 1..])
      case None => None
      case Some((w, y)) =>
        var m := DateMatch(t[..n], w, y);
        assert m.Text() == t[..n] + " " + (w + " " + y);
        Some(m)
  }

  /** The matched date text always splits into exactly the three pieces day, word and year. */
  lemma DateMatchWords(m: DateMatch, letter: char -> bool)
    requires m.WellFormed(letter)
    requires forall c :: letter(c) ==> NotSpace(c)
    ensures Words(m.Text()) == [m.day, m.word, m.year]
  {
    assert forall c :: IsDigit(c) ==> NotSpace(c);
    AllWeaken(m.day, IsDigit, NotSpace);
    AllWeaken(m.word, letter, NotSpace);
    AllWeaken(m.year, IsDigit, NotSpace);
    RunsOfRun(m.day, NotSpace);
    TwoWords(m.word, m.year);
    assert m.Text() == m.day + [' '] + (m.word + [' '] + m.year);
    RunsSplit(m.day, ' ', m.word + [' '] + m.year, NotSpace);
  }

  /** Two words with one space between them split into those two words. */
  lemma TwoWords(a: string, b: string)
    requires a != [] && All(a, NotSpace)
    requires b != [] && All(b, NotSpace)
    ensures Runs(a + [' '] + b, NotSpace) == [a, b]
  {
    RunsOfRun(a, NotSpace);
    RunsOfRun(b, NotSpace);
    RunsSplit(a, ' ', b, NotSpace);
  }

  /** The letter run and year of a well-formed date text are read back. */
  lemma WordYearAtText(letter: char -> bool, word: string, year: string, post: string)
    requires word != [] && All(word, letter) && !letter(' ')
    requires |year| == 4 && All(year, IsDigit)
    ensures WordYearAt(letter, word + " " + year + post) == Some((word, year))
  {
    var u := word + " " + year + post;
    assert u == word + ([' '] + year + post);
    LeadLenStops(word, [' '] + year + post, letter);
    var w := |word|;
    assert u[..w] == word && u[w] == ' ';
    assert u[w + 1..][..4] == year;
  }

  /** A well-formed date text is matched, whole, at the start of the string. */
  lemma DateAtText(letter: char -> bool, m: DateMatch, post: string)
    requires m.WellFormed(letter) && !letter(' ')
    ensures DateAt(letter, m.Text() + post) == Some(m)
  {
    var t := m.Text() + post;
    var n := |m.day|;
    assert t == m.day + ([' '] + (m.word + " " + m.year + post));
    assert t[..n] == m.day && t[n] == ' ';
    assert DayDigits(t) == n;
    assert t[n + 1..] == m.word + " " + m.year + post;
    WordYearAtText(letter, m.word, m.year, post);
  }
}

=== FILE: scan.dfy ===
/**
 * Maximal runs of characters that satisfy a class. Python's `re.findall(r"\d+", s)`
 * is the list of maximal digit runs, and `s.split()` is the list of maximal runs of
 * non-whitespace characters; both are `Runs` with a different class.
 */
module Scan {

  /** Every character of `s` is in the class `p`. */
  predicate All(s: string, p: char -> bool) {
    forall i :: 0 <= i < |s| ==> p(s[i])
  }

  lemma AllAt(s: string, p: char -> bool, k: nat)
    requires All(s, p) && k < |s|
    ensures p(s[k])
  {
  }

  /** The characters of `s` that are in `p`, in order. */
  function Filter(s: string, p: char -> bool): (r: string)
    ensures |r| <= |s|
    ensures All(r, p)
  {
    if s == [] then []
    else if p(s[0]) then [s[0]] + Filter(s[1..], p)
    else Filter(s[1..], p)
  }

  /** The pieces of `runs` glued together. */
  function Flatten(runs: seq<string>): string {
    if runs == [] then [] else runs[0] + Flatten(runs[1..])
  }

  /** Length of the longest prefix of `s` that lies in `p`. */
  function LeadLen(s: string, p: char -> bool): (k: nat)
    ensures k <= |s|
    ensures All(s[..k], p)
    ensures k == |s| || !p(s[k])
  {
    if s == [] || !p(s[0]) then 0 else 1 + LeadLen(s[1..], p)
  }

  /** Length of the longest suffix of `s` that lies in `p`. */
  function TrailLen(s: string, p: char -> bool): (k: nat)
    ensures k <= |s|
    ensures All(s[|s| - k..], p)
    ensures k == |s| || !p(s[|s| - k - 1])
  {
    if s == [] || !p(s[|s| - 1]) then 0 else 1 + TrailLen(s[..|s| - 1], p)
  }

  /** A run followed by a character outside the class is the leading run. */
  lemma {:induction false} LeadLenOfRun(run: string, rest: string, p: char -> bool)
    requires All(run, p)
    requires rest == [] || !p(rest[0])
    ensures LeadLen(run + rest, p) == |run|
  {
    if run == [] {
      assert run + rest == rest;
    } else {
      assert (run + rest)[1..] == run[1..] + rest;
      LeadLenOfRun(run[1..], rest, p);
    }
  }

  /** A run preceded by a character outside the class is the trailing run. */
  lemma {:induction false} TrailLenOfRun(init: string, run: string, p: char -> bool)
    requires All(run, p)
    requires init == [] || !p(init[|init| - 1])
    ensures TrailLen(init + run, p) == |run|
  {
    if run == [] {
      assert init + run == init;
    } else {
      var s := init + run;
      assert s[..|s| - 1] == init + run[..|run| - 1];
      AllAt(run, p, |run| - 1);
      TrailLenOfRun(init, run[..|run| - 1], p);
    }
  }

  /** The maximal runs of `p`-characters in `s`, left to right. */
  function Runs(s: string, p: char -> bool): (r: seq<string>)
    ensures forall k :: 0 <= k < |r| ==> r[k] != [] && All(r[k], p)
    decreases |s|
  {
    if s == [] then []
    else if !p(s[0]) then Runs(s[1..], p)
    else
      var k := LeadLen(s, p);
      [s[..k]] + Runs(s[k..], p)
  }

  /** Every `p`-character of `s` lies in exactly one run, in order, and nothing else does. */
  lemma {:induction false} RunsCoverClass(s: string, p: char -> bool)
    ensures Flatten(Runs(s, p)) == Filter(s, p)
    decreases |s|
  {
    if s == [] {
    } else if !p(s[0]) {
      RunsCoverClass(s[1..], p);
    } else {
      var k := LeadLen(s, p);
      RunsCoverClass(s[k..], p);
      assert Flatten(Runs(s, p)) == s[..k] + Flatten(Runs(s[k..], p));
      FilterAll(s[..k], p);
      FilterAppend(s[..k], s[k..], p);
      assert s[..k] + s[k..] == s;
    }
  }

  lemma {:induction false} FilterAll(s: string, p: char -> bool)
    requires All(s, p)
    ensures Filter(s, p) == s
  {
    if s != [] {
      FilterAll(s[1..], p);
    }
  }

  lemma {:induction false} FilterAppend(a: string, b: string, p: char -> bool)
    ensures Filter(a + b, p) == Filter(a, p) + Filter(b, p)
  {
    if a == [] {
      assert a + b == b;
    } else {
      assert (a + b)[1..] == a[1..] + b;
      FilterAppend(a[1..], b, p);
    }
  }

  /** A string that is one non-empty run gives that run alone. */
  lemma {:induction false} RunsOfRun(s: string, p: char -> bool)
    requires s != [] && All(s, p)
    ensures Runs(s, p) == [s]
  {
    var k := LeadLen(s, p);
    assert k == |s|;
    assert s[..k] == s;
    assert s[k..] == [];
  }

  /** A string with no `p`-character has no runs. */
  lemma {:induction false} RunsOfNone(s: string, p: char -> bool)
    requires forall i :: 0 <= i < |s| ==> !p(s[i])
    ensures Runs(s, p) == []
  {
    if s != [] {
      RunsOfNone(s[1..], p);
    }
  }

  /** Runs are maximal: a character outside the class separates the runs on its two sides. */
  lemma {:induction false} RunsSplit(a: string, c: char, b: string, p: char -> bool)
    requires !p(c)
    ensures Runs(a + [c] + b, p) == Runs(a, p) + Runs(b, p)
    decreases |a|
  {
    var s := a + [c] + b;
    if a == [] {
      assert s[1..] == b;
    } else if !p(a[0]) {
      assert s[1..] == a[1..] + [c] + b;
      RunsSplit(a[1..], c, b, p);
    } else {
      var k := LeadLen(a, p);
      LeadLenStops(a, [c] + b, p);
      assert s == a + ([c] + b);
      assert LeadLen(s, p) == k;
      assert s[..k] == a[..k];
      assert s[k..] == a[k..] + [c] + b;
      RunsSplit(a[k..], c, b, p);
    }
  }

  /** The leading run of `a + b` ends where that of `a` does once `a`'s run is cut off. */
  lemma {:induction false} LeadLenStops(a: string, b: string, p: char -> bool)
    requires LeadLen(a, p) < |a| || (b != [] && !p(b[0]))
    ensures LeadLen(a + b, p) == LeadLen(a, p)
  {
    if a == [] {
      assert a + b == b;
    } else if p(a[0]) {
      assert (a + b)[1..] == a[1..] + b;
      LeadLenStops(a[1..], b, p);
    }
  }

  /** A prefix made only of characters outside the class does not change the runs. */
  lemma {:induction false} RunsSkipPrefix(a: string, b: string, p: char -> bool)
    requires forall i :: 0 <= i < |a| ==> !p(a[i])
    ensures Runs(a + b, p) == Runs(b, p)
  {
    if a == [] {
      assert a + b == b;
    } else {
      assert (a + b)[0] == a[0];
      assert (a + b)[1..] == a[1..] + b;
      RunsSkipPrefix(a[1..], b, p);
    }
  }

  /** A string inside one class lies inside every larger class. */
  lemma AllWeaken(s: string, p: char -> bool, q: char -> bool)
    requires All(s, p)
    requires forall c :: p(c) ==> q(c)
    ensures All(s, q)
  {
    forall i | 0 <= i < |s| ensures q(s[i]) {
      assert p(s[i]);
    }
  }
}

=== FILE: sorting.dfy ===
/** Python's `sorted` on a list of strings: ascending code-point order, as `<=` on `str` compares. */
module Sorting {

  /** `a <= b` on Python strings: code point by code point, a proper prefix first. */
  predicate LessEq(a: string, b: string) {
    a == [] || (b != [] && (a[0] < b[0] || (a[0] == b[0] && LessEq(a[1..], b[1..]))))
  }

  lemma {:induction false} LessEqTotal(a: string, b: string)
    ensures LessEq(a, b) || LessEq(b, a)
  {
    if a != [] && b != [] && a[0] == b[0] {
      LessEqTotal(a[1..], b[1..]);
    }
  }

  lemma {:induction false} LessEqAntisymmetric(a: string, b: string)
    requires LessEq(a, b) && LessEq(b, a)
    ensures a == b
  {
    if a != [] && b != [] {
      LessEqAntisymmetric(a[1..], b[1..]);
      assert a == [a[0]] + a[1..] && b == [b[0]] + b[1..];
    }
  }

  lemma {:induction false} LessEqTransitive(a: string, b: string, c: string)
    requires LessEq(a, b) && LessEq(b, c)
    ensures LessEq(a, c)
  {
    if a != [] && a[0] == b[0] && b[0] == c[0] {
      LessEqTransitive(a[1..], b[1..], c[1..]);
    }
  }

  /** Each string is at most the next one. */
  predicate Sorted(s: seq<string>) {
    forall i :: 0 < i < |s| ==> LessEq(s[i - 1], s[i])
  }

  /** In a sorted list the first string is at most every other. */
  lemma {:induction false} SortedHeadLeast(s: seq<string>, k: nat)
    requires Sorted(s) && k < |s|
    ensures LessEq(s[0], s[k])
  {
    if k == 0 {
      LessEqTotal(s[0], s[0]);
    } else {
      SortedHeadLeast(s, k - 1);
      LessEqTransitive(s[0], s[k - 1], s[k]);
    }
  }

  /** `x` put into sorted `s` in its place. */
  function Insert(x: string, s: seq<string>): (r: seq<string>)
    requires Sorted(s)
    ensures Sorted(r)
    ensures multiset(r) == multiset(s) + multiset{x}
    ensures r[0] == x || (s != [] && r[0] == s[0])
  {
    if s == [] then [x]
    else if LessEq(x, s[0]) then [x] + s
    else
      LessEqTotal(x, s[0]);
      var rest := Insert(x, s[1..]);
      assert s == [s[0]] + s[1..];
      [s[0]] + rest
  }

  /** `sorted(s)`: the same strings, in ascending order. */
  function Sort(s: seq<string>): (r: seq<string>)
    ensures Sorted(r)
    ensures multiset(r) == multiset(s)
  {
    if s == [] then []
    else
      assert s == [s[0]] + s[1..];
      Insert(s[0], Sort(s[1..]))
  }

  /** In a sorted list the first string is at most every member. */
  lemma SortedHeadLeastOf(s: seq<string>, x: string)
    requires Sorted(s) && x in s
    ensures LessEq(s[0], x)
  {
    var k :| 0 <= k < |s| && s[k] == x;
    SortedHeadLeast(s, k);
  }

  lemma MultisetTail(a: seq<string>, b: seq<string>)
    requires a != [] && b != [] && a[0] == b[0]
    requires multiset(a) == multiset(b)
    ensures multiset(a[1..]) == multiset(b[1..])
  {
    assert a == [a[0]] + a[1..];
    assert b == [b[0]] + b[1..];
    calc {
      multiset(a[1..]);
      multiset(a) - multiset{a[0]};
      multiset(b) - multiset{b[0]};
      multiset(b[1..]);
    }
  }

  /**
   * There is only one sorted arrangement of a collection of strings, so `Sort` agrees with
   * any other correct sorting algorithm, Python's included.
   */
  lemma {:induction false} SortedUnique(a: seq<string>, b: seq<string>)
    requires Sorted(a) && Sorted(b)
    requires multiset(a) == multiset(b)
    ensures a == b
  {
    if a == [] {
      assert |multiset(b)| == 0;
    } else {
      assert a[0] in multiset(b);
      assert b[0] in multiset(a);
      SortedHeadLeastOf(a, b[0]);
      SortedHeadLeastOf(b, a[0]);
      LessEqAntisymmetric(a[0], b[0]);
      MultisetTail(a, b);
      SortedUnique(a[1..], b[1..]);
      assert a == [a[0]] + a[1..] && b == [b[0]] + b[1..];
    }
  }
}

=== FILE: spider.dfy ===
/**
 * The two callbacks of `VacanciesSpider`: `parse` turns a listing page into requests,
 * and `get_single_vacancy` turns a detail page into one vacancy record. Each handler
 * returns what the Python generator yields, in order.
 */
module Spider {
  import opened Wrappers
  import opened Scan
  import opened Numbers
  import opened Strings
  import opened Sorting
  import opened Calendar
  import opened Patterns
  import opened Extractors

  // ------------------------------------------------------------- crawl step

  /** The method a fetched page is handed to. */
  datatype Callback = CallParse | CallGetSingleVacancy

  /** A page to fetch, with the callback that receives it. */
  datatype Request = Request(url: string, callback: Callback)

  /** One detail request per listing link, in link order. */
  function DetailRequests(resolve: string -> string, links: seq<string>): (r: seq<Request>)
    ensures |r| == |links|
    ensures forall i :: 0 <= i < |links| ==> r[i] == Request(resolve(links[i]), CallGetSingleVacancy)
  {
    if links == [] then []
    else [Request(resolve(links[0]), CallGetSingleVacancy)] + DetailRequests(resolve, links[1..])
  }

  /**
   * `parse`: a request for every vacancy link, then a request for the next listing page
   * when there is a pagination link. `resolve` is `response.urljoin` against the listing
   * page's URL, which `response.follow` also uses.
   */
  function Parse(resolve: string -> string, links: seq<string>, nextPage: Option<string>): (r: seq<Request>)
    ensures |r| == |links| + (if nextPage.Some? then 1 else 0)
    ensures forall i :: 0 <= i < |links| ==> r[i] == Request(resolve(links[i]), CallGetSingleVacancy)
    ensures nextPage.Some? ==> r[|links|] == Request(resolve(nextPage.value), CallParse)
  {
    DetailRequests(resolve, links) +
      match nextPage
      case None => []
      case Some(page) => [Request(resolve(page), CallParse)]
  }

  /** How many of `rs` go to `callback`. */
  function CountFor(rs: seq<Request>, callback: Callback): nat {
    if rs == [] then 0 else (if rs[0].callback == callback then 1 else 0) + CountFor(rs[1..], callback)
  }

  lemma {:induction false} CountForAppend(a: seq<Request>, b: seq<Request>, callback: Callback)
    ensures CountFor(a + b, callback) == CountFor(a, callback) + CountFor(b, callback)
  {
    if a == [] {
      assert a + b == b;
    } else {
      assert (a + b)[1..] == a[1..] + b;
      CountForAppend(a[1..], b, callback);
    }
  }

  lemma {:induction false} DetailRequestsCount(resolve: string -> string, links: seq<string>)
    ensures CountFor(DetailRequests(resolve, links), CallGetSingleVacancy) == |links|
    ensures CountFor(DetailRequests(resolve, links), CallParse) == 0
  {
    if links != [] {
      DetailRequestsCount(resolve, links[1..]);
    }
  }

  /**
   * A listing page yields exactly one detail request per link and one next-page request
   * if and only if there is a pagination link: three links and no pagination give three
   * detail requests and none for a next page.
   */
  lemma ParseCounts(resolve: string -> string, links: seq<string>, nextPage: Option<string>)
    ensures CountFor(Parse(resolve, links, nextPage), CallGetSingleVacancy) == |links|
    ensures CountFor(Parse(resolve, links, nextPage), CallParse) == if nextPage.Some? then 1 else 0
  {
    DetailRequestsCount(resolve, links);
    var tail: seq<Request> := match nextPage case None => [] case Some(page) => [Request(resolve(page), CallParse)];
    CountForAppend(DetailRequests(resolve, links), tail, CallGetSingleVacancy);
    CountForAppend(DetailRequests(resolve, links), tail, CallParse);
  }

  // --------------------------------------------------------- vacancy record

  /** The static reference data: month words (month 1 first) and known technologies. */
  datatype Vocabulary = Vocabulary(months: seq<string>, technologies: seq<string>)

  /** What each selector of `get_single_vacancy` returned on one detail page. */
  datatype DetailPage = DetailPage(
    relocationText: Option<string>,   // `.bi-airplane + div::text`
    testTaskText: Option<string>,     // `.bi-pencil-square + div::text`
    muted: seq<string>,               // every `.text-muted` element, in document order
    titleText: Option<string>,        // `h1::text`
    salaryText: Option<string>,       // `.public-salary-item::text`
    companyText: Option<string>,      // `.job-details--title::text`
    englishLevelText: Option<string>, // the div whose text contains "Англійська:"
    experienceText: Option<string>,   // the div whose text contains "досвіду"
    domainText: Option<string>,       // the div whose text contains "Домен:"
    jobTypeText: Option<string>,      // `.bi-building + div::text`
    companyTypeText: Option<string>,  // `.bi-exclude + div::text`
    countryText: Option<string>,      // `.bi-geo-alt-fill + div > span::text`
    description: Option<string>       // `.mb-4`, the first one
  )

  /** The yielded dictionary: exactly its fifteen keys, in order. */
  datatype Vacancy = Vacancy(
    title: string,
    salary: Option<seq<nat>>,
    company: string,
    englishLevel: Option<string>,
    experienceYears: int,
    domain: Option<string>,
    jobType: Option<string>,
    companyType: Option<string>,
    country: Option<seq<string>>,
    relocationCompensationExists: bool,
    testTaskExists: bool,
    publicationDate: Date,
    viewsCount: nat,
    applicantCount: nat,
    technologies: seq<string>
  )

  /** `bool(text)`: false for `None` and for the empty string. */
  predicate IsTruthy(text: Option<string>) {
    text.Some? && text.value != []
  }

  /** `int(response.css(".text-muted").re_first(r"(\d+)<suffix>"))`; `int(None)` raises `TypeError`. */
  function CountOf(field: Field, suffix: string, muted: seq<string>): (r: Result<nat, Error>)
    ensures r.Err? <==> ReFirst(muted, t => CountAt(suffix, t)).None?
    ensures r.Err? ==> r.error == Error(field, NoneText)
    ensures r.Ok? ==> exists digits :: && ReFirst(muted, t => CountAt(suffix, t)) == Some(digits)
                                       && All(digits, IsDigit) && r.value == DecimalValue(digits)
  {
    match ReFirst(muted, t => CountAt(suffix, t))
    case None => Err(Error(field, NoneText))
    case Some(digits) =>
      assert digits != [] && All(digits, IsDigit);
      Ok(DecimalValue(digits))
  }

  /** `text.strip()` on a lookup that must be present; `None.strip()` raises `AttributeError`. */
  function StrippedText(field: Field, text: Option<string>): (r: Result<string, Error>)
    ensures r.Err? <==> text.None?
    ensures r.Err? ==> r.error == Error(field, NoneText)
    ensures r.Ok? ==> IsStripped(r.value)
  {
    match text
    case None => Err(Error(field, NoneText))
    case Some(s) => Ok(Strip(s))
  }

  /**
   * The record built from what each lookup gave, the first failure in Python's evaluation
   * order aborting it: the four values computed before the dictionary, then the
   * dictionary's fields from top to bottom. Every lookup is pure, so computing them all
   * first and keeping the first failure is the same as stopping at it.
   */
  function Assemble(
    relocation: bool, testTask: bool,
    views: Result<nat, Error>, applicants: Result<nat, Error>,
    title: Result<string, Error>, salary: Option<seq<nat>>, company: Result<string, Error>,
    englishLevel: Result<Option<string>, Error>, experienceYears: Result<int, Error>,
    domain: Result<Option<string>, Error>, jobType: Option<string>, companyType: Option<string>,
    country: Option<seq<string>>, publicationDate: Result<Date, Error>,
    technologies: Result<seq<string>, Error>): (r: Result<Vacancy, Error>)
    ensures r.Ok? <==> && views.Ok? && applicants.Ok? && title.Ok? && company.Ok? && englishLevel.Ok?
                       && experienceYears.Ok? && domain.Ok? && publicationDate.Ok? && technologies.Ok?
    ensures r.Ok? ==> r.value == Vacancy(
              title.value, salary, company.value, englishLevel.value, experienceYears.value,
              domain.value, jobType, companyType, country, relocation, testTask,
              publicationDate.value, views.value, applicants.value, technologies.value)
    ensures views.Err? ==> r == Err(views.error)
    ensures views.Ok? && applicants.Err? ==> r == Err(applicants.error)
    ensures views.Ok? && applicants.Ok? && title.Err? ==> r == Err(title.error)
    ensures views.Ok? && applicants.Ok? && title.Ok? && company.Err? ==> r == Err(company.error)
    ensures (&& views.Ok? && applicants.Ok? && title.Ok? && company.Ok?
             && englishLevel.Err?) ==> r == Err(englishLevel.error)
    ensures (&& views.Ok? && applicants.Ok? && title.Ok? && company.Ok? && englishLevel.Ok?
             && experienceYears.Err?) ==> r == Err(experienceYears.error)
    ensures (&& views.Ok? && applicants.Ok? && title.Ok? && company.Ok? && englishLevel.Ok?
             && experienceYears.Ok? && domain.Err?) ==> r == Err(domain.error)
    ensures (&& views.Ok? && applicants.Ok? && title.Ok? && company.Ok? && englishLevel.Ok?
             && experienceYears.Ok? && domain.Ok? && publicationDate.Err?) ==> r == Err(publicationDate.error)
    ensures (&& views.Ok? && applicants.Ok? && title.Ok? && company.Ok? && englishLevel.Ok?
             && experienceYears.Ok? && domain.Ok? && publicationDate.Ok? && technologies.Err?)
            ==> r == Err(technologies.error)
  {
    var viewsCount :- views;
    var applicantCount :- applicants;
    var title :- title;
    var company :- company;
    var englishLevel :- englishLevel;
    var experienceYears :- experienceYears;
    var domain :- domain;
    var publicationDate :- publicationDate;
    var technologies :- technologies;
    Ok(Vacancy(
      title, salary, company, englishLevel, experienceYears, domain, jobType, companyType,
      country, relocation, testTask, publicationDate, viewsCount, applicantCount, technologies))
  }

  /**
   * `get_single_vacancy`, its date read with the class `[а-я]` as the code writes it. A
   * yielded record has a stripped title and company, a real publication date, sorted
   * countries, and English level and domain values without ':'.
   */
  function GetSingleVacancy(vocabulary: Vocabulary, page: DetailPage): (r: Result<Vacancy, Error>)
    ensures r.Ok? ==> IsStripped(r.value.title) && IsStripped(r.value.company)
    ensures r.Ok? ==> IsValid(r.value.publicationDate) && r.value.publicationDate.month <= |vocabulary.months|
    ensures r.Ok? && r.value.country.Some? ==> Sorted(r.value.country.value)
    ensures r.Ok? && r.value.englishLevel.Some? ==> ':' !in r.value.englishLevel.value
    ensures r.Ok? && r.value.domain.Some? ==> ':' !in r.value.domain.value
  {
    Assemble(
      IsTruthy(page.relocationText),
      IsTruthy(page.testTaskText),
      CountOf(ViewsCount, ViewsSuffix, page.muted),
      CountOf(ApplicantCount, ApplicantsSuffix, page.muted),
      StrippedText(Title, page.titleText),
      GetSalary(page.salaryText),
      StrippedText(Company, page.companyText),
      GetEnglishLevel(page.englishLevelText),
      GetExperienceYears(page.experienceText),
      GetDomain(page.domainText),
      page.jobTypeText,
      page.companyTypeText,
      GetCountry(page.countryText),
      GetPublicationDateAsWritten(vocabulary.months, page.muted),
      GetTechnologies(vocabulary.technologies, page.description))
  }

  /** Every lookup whose failure raises succeeded. */
  predicate RequiredPresent(vocabulary: Vocabulary, page: DetailPage) {
    && ReFirst(page.muted, t => CountAt(ViewsSuffix, t)).Some?
    && ReFirst(page.muted, t => CountAt(ApplicantsSuffix, t)).Some?
    && page.titleText.Some?
    && page.companyText.Some?
    && GetEnglishLevel(page.englishLevelText).Ok?
    && GetExperienceYears(page.experienceText).Ok?
    && GetDomain(page.domainText).Ok?
    && GetPublicationDateAsWritten(vocabulary.months, page.muted).Ok?
    && page.description.Some?
  }

  /** A record is yielded exactly when every required lookup succeeds. */
  lemma RecordIffRequired(vocabulary: Vocabulary, page: DetailPage)
    ensures GetSingleVacancy(vocabulary, page).Ok? <==> RequiredPresent(vocabulary, page)
  {
  }

  /**
   * A yielded record holds: the two flags as `bool` of their text, the stripped title and
   * company, the job and company types unchanged, and every other field as its helper
   * gives it.
   */
  lemma RecordFields(vocabulary: Vocabulary, page: DetailPage)
    requires GetSingleVacancy(vocabulary, page).Ok?
    ensures var v := GetSingleVacancy(vocabulary, page).value;
      && v.relocationCompensationExists == (page.relocationText.Some? && page.relocationText.value != [])
      && v.testTaskExists == (page.testTaskText.Some? && page.testTaskText.value != [])
      && v.title == Strip(page.titleText.value) && IsStripped(v.title)
      && v.company == Strip(page.companyText.value) && IsStripped(v.company)
      && v.jobType == page.jobTypeText
      && v.companyType == page.companyTypeText
      && v.salary == GetSalary(page.salaryText)
      && v.country == GetCountry(page.countryText)
      && Ok(v.englishLevel) == GetEnglishLevel(page.englishLevelText)
      && Ok(v.experienceYears) == GetExperienceYears(page.experienceText)
      && Ok(v.domain) == GetDomain(page.domainText)
      && Ok(v.publicationDate) == GetPublicationDateAsWritten(vocabulary.months, page.muted)
      && Ok(v.technologies) == GetTechnologies(vocabulary.technologies, page.description)
  {
  }

  /**
   * Failures are reported in evaluation order: a missing view count first, then a missing
   * applicant count, then a missing title.
   */
  lemma FirstFailureReported(vocabulary: Vocabulary, page: DetailPage)
    ensures ReFirst(page.muted, t => CountAt(ViewsSuffix, t)).None? ==>
              GetSingleVacancy(vocabulary, page) == Err(Error(ViewsCount, NoneText))
    ensures (&& ReFirst(page.muted, t => CountAt(ViewsSuffix, t)).Some?
             && ReFirst(page.muted, t => CountAt(ApplicantsSuffix, t)).None?) ==>
              GetSingleVacancy(vocabulary, page) == Err(Error(ApplicantCount, NoneText))
    ensures (&& ReFirst(page.muted, t => CountAt(ViewsSuffix, t)).Some?
             && ReFirst(page.muted, t => CountAt(ApplicantsSuffix, t)).Some?
             && page.titleText.None?) ==>
              GetSingleVacancy(vocabulary, page) == Err(Error(Title, NoneText))
  {
  }

  /**
   * The optional lookups never abort a record: whatever the salary, job type, company
   * type, country, relocation and test-task lookups return, a record is yielded or not
   * exactly as before.
   */
  lemma OptionalLookupsNeverFail(vocabulary: Vocabulary, page: DetailPage, salary: Option<string>,
                                 jobType: Option<string>, companyType: Option<string>,
                                 country: Option<string>, relocation: Option<string>, testTask: Option<string>)
    ensures
      var other := page.(salaryText := salary, jobTypeText := jobType, companyTypeText := companyType,
                         countryText := country, relocationText := relocation, testTaskText := testTask);
      GetSingleVacancy(vocabulary, other).Ok? == GetSingleVacancy(vocabulary, page).Ok?
  {
    var other := page.(salaryText := salary, jobTypeText := jobType, companyTypeText := companyType,
                       countryText := country, relocationText := relocation, testTaskText := testTask);
    RecordIffRequired(vocabulary, page);
    RecordIffRequired(vocabulary, other);
  }

  /**
   * The counts are read from the muted text: `"125 переглядів"` gives 125 views and
   * `"3 відгуки"` 3 applicants, when no earlier element holds a count and no count match
   * starts before the number in its element; the text before it may hold other digits,
   * such as a date.
   */
  lemma CountRead(field: Field, suffix: string, earlier: seq<string>, pre: string, n: nat, post: string, more: seq<string>)
    requires suffix == ViewsSuffix || suffix == ApplicantsSuffix
    requires forall k :: 0 <= k < |earlier| ==> Search(earlier[k], t => CountAt(suffix, t)).None?
    requires forall i :: 0 <= i < |pre| ==> CountAt(suffix, (pre + Decimal(n) + suffix + post)[i..]).None?
    ensures CountOf(field, suffix, earlier + [pre + Decimal(n) + suffix + post] + more) == Ok(n)
  {
    var at := t => CountAt(suffix, t);
    var s := pre + Decimal(n) + suffix + post;
    assert s[|pre|..] == Decimal(n) + suffix + post;
    CountAtText(suffix, Decimal(n), s[|pre|..]);
    forall j | 0 <= j < |pre| ensures at(s[j..]).None? {
    }
    SearchLeftmost(s, at, |pre|);
    var rest := [s] + more;
    assert ReFirst(rest, at) == Some(Decimal(n));
    assert earlier + [s] + more == earlier + rest;
    ReFirstSkip(earlier, rest, at);
    DecimalRoundTrip(n);
  }

  /**
   * A count written anywhere in the muted text is found, so `CountOf` fails only when no
   * element holds digits followed by the suffix.
   */
  lemma CountFound(field: Field, suffix: string, muted: seq<string>, k: nat, i: nat, d: string)
    requires suffix == ViewsSuffix || suffix == ApplicantsSuffix
    requires k < |muted| && i <= |muted[k]|
    requires d != [] && All(d, IsDigit) && d + suffix <= muted[k][i..]
    ensures CountOf(field, suffix, muted).Ok?
  {
    var at := t => CountAt(suffix, t);
    CountAtText(suffix, d, muted[k][i..]);
    assert at(muted[k][i..]).Some?;
    assert Search(muted[k], at).Some?;
  }

  /**
   * A count after a date and `" · "` in an element of its own, as in
   * `"5 травня 2023 · 125 переглядів"` or `"5 вересня 2023 · 3 відгуки"`, is read: the
   * digits of the date are not taken for the count. The one exception is a month word
   * that begins with the suffix's word, where the day itself would be the count.
   */
  lemma CountAfterDate(field: Field, suffix: string, letter: char -> bool, m: DateMatch, n: nat, post: string)
    requires suffix == ViewsSuffix || suffix == ApplicantsSuffix
    requires m.WellFormed(letter) && forall c :: letter(c) ==> !IsDigit(c)
    requires !(suffix[1..] <= m.word)
    ensures CountOf(field, suffix, [m.Text() + " · " + Decimal(n) + suffix + post]) == Ok(n)
  {
    var tail := Decimal(n) + suffix + post;
    var pre := m.Text() + " · ";
    NoCountInDate(suffix, letter, m, tail);
    assert pre + Decimal(n) + suffix + post == pre + tail;
    CountRead(field, suffix, [], pre, n, post, []);
    assert [] + [pre + Decimal(n) + suffix + post] + [] == [pre + tail];
  }

  /** `"5 вересня 2023 · 3 відгуки"` gives 3 applicants: "вересня" only shares its first letter with "відгук". */
  lemma ApplicantsAfterSeptember()
    ensures CountOf(ApplicantCount, ApplicantsSuffix, ["5 вересня 2023 · 3 відгуки"]) == Ok(3)
  {
    var m := DateMatch("5", "вересня", "2023");
    assert m.WellFormed(IsRangeLetter);
    SeptemberIsNotApplicants(m.word);
    CountAfterDate(ApplicantCount, ApplicantsSuffix, IsRangeLetter, m, 3, "и");
    SeptemberText(m.word);
  }

  /** The month word "вересня" does not begin with "відгук". */
  lemma SeptemberIsNotApplicants(word: string)
    requires word == "вересня"
    ensures !(ApplicantsSuffix[1..] <= word)
  {
    assert ApplicantsSuffix[1..][1] == 'і' && word[1] == 'е';
  }

  /** The element text of the September example, piece by piece. */
  lemma SeptemberText(word: string)
    requires word == "вересня"
    ensures DateMatch("5", word, "2023").Text() + " · " + Decimal(3) + ApplicantsSuffix + "и"
            == "5 вересня 2023 · 3 відгуки"
  {
    assert Decimal(3) == "3";
  }
}

=== FILE: strings.dfy ===
/**
 * The Python string and list builtins the spider chains together: `strip()`,
 * `split(sep)`, `split()`, `replace`, `lower()`, the `in` operator on strings and
 * `list.index`.
 */
module Strings {
  import opened Wrappers
  import opened Scan

  /** Python's `str.isspace` for one code point; `split()` and `strip()` use this set. */
  predicate IsSpace(c: char) {
    || ('\t' <= c <= '\r')
    || ('\U{1C}' <= c <= ' ')
    || c == '\U{85}' || c == '\U{A0}' || c == '\U{1680}'
    || ('\U{2000}' <= c <= '\U{200A}')
    || c == '\U{2028}' || c == '\U{2029}' || c == '\U{202F}' || c == '\U{205F}' || c == '\U{3000}'
  }

  predicate NotSpace(c: char) {
    !IsSpace(c)
  }

  /** Neither starts nor ends with whitespace. */
  predicate IsStripped(s: string) {
    s == [] || (NotSpace(s[0]) && NotSpace(s[|s| - 1]))
  }

  /**
   * `s.strip()`: `s` with its leading and trailing whitespace removed. The result is the
   * middle of `s`, only whitespace was removed around it, and it neither starts nor ends
   * with whitespace.
   */
  function Strip(s: string): (r: string)
    ensures IsStripped(r)
    ensures exists i, j :: 0 <= i <= j <= |s| && r == s[i..j] && All(s[..i], IsSpace) && All(s[j..], IsSpace)
  {
    var i := LeadLen(s, IsSpace);
    var t := s[i..];
    var k := TrailLen(t, IsSpace);
    assert t != [] ==> NotSpace(t[0]);
    assert t != [] ==> k < |t| by {
      assert k == |t| ==> t[|t| - k..] == t;
    }
    assert s[i..][..|t| - k] == s[i..i + |t| - k];
    assert s[i + |t| - k..] == t[|t| - k..];
    t[..|t| - k]
  }

  /** Whitespace around a stripped, non-empty text is exactly what `strip()` removes. */
  lemma StripAround(lead: string, m: string, trail: string)
    requires All(lead, IsSpace) && All(trail, IsSpace)
    requires m != [] && IsStripped(m)
    ensures Strip(lead + m + trail) == m
  {
    var x := lead + m + trail;
    assert x == lead + (m + trail);
    LeadLenOfRun(lead, m + trail, IsSpace);
    assert x[|lead|..] == m + trail;
    TrailLenOfRun(m, trail, IsSpace);
    assert (m + trail)[..|m|] == m;
  }

  /** Number of occurrences of `c` in `s`. */
  function Count(s: string, c: char): nat {
    if s == [] then 0 else (if s[0] == c then 1 else 0) + Count(s[1..], c)
  }

  lemma {:induction false} CountAppend(a: string, b: string, c: char)
    ensures Count(a + b, c) == Count(a, c) + Count(b, c)
  {
    if a == [] {
      assert a + b == b;
    } else {
      assert (a + b)[1..] == a[1..] + b;
      CountAppend(a[1..], b, c);
    }
  }

  /** Stripping never removes a non-whitespace character such as a separator. */
  lemma StripKeepsCount(s: string, c: char)
    requires NotSpace(c)
    ensures Count(Strip(s), c) == Count(s, c)
  {
    var i, j :| 0 <= i <= j <= |s| && Strip(s) == s[i..j] && All(s[..i], IsSpace) && All(s[j..], IsSpace);
    var x, y, z := s[..i], s[i..j], s[j..];
    assert s == x + y + z;
    CountAppend(x + y, z, c);
    CountAppend(x, y, c);
    SpacesCountNone(x, c);
    SpacesCountNone(z, c);
  }

  /** Whitespace holds no occurrence of a non-whitespace character. */
  lemma SpacesCountNone(x: string, c: char)
    requires All(x, IsSpace) && NotSpace(c)
    ensures Count(x, c) == 0
  {
    forall k | 0 <= k < |x| ensures x[k] != c {
      AllAt(x, IsSpace, k);
    }
    assert c !in x;
    CountOfNone(x, c);
  }

  lemma {:induction false} CountOfNone(s: string, c: char)
    requires c !in s
    ensures Count(s, c) == 0
  {
    if s != [] {
      CountOfNone(s[1..], c);
    }
  }

  /** A character counts as present exactly when it occurs. */
  lemma {:induction false} CountPositive(s: string, c: char)
    ensures Count(s, c) > 0 <==> c in s
  {
    if s != [] {
      CountPositive(s[1..], c);
      assert s == [s[0]] + s[1..];
    }
  }

  /** Stripping removes characters and adds none. */
  lemma StripInside(s: string, c: char)
    requires c !in s
    ensures c !in Strip(s)
  {
    var i, j :| 0 <= i <= j <= |s| && Strip(s) == s[i..j] && All(s[..i], IsSpace) && All(s[j..], IsSpace);
    assert forall k :: 0 <= k < j - i ==> s[i..j][k] == s[i + k];
  }

  /**
   * `s.split(c)`: the pieces between occurrences of `c`, empty pieces included. There is
   * one more piece than separators, and no piece holds the separator.
   */
  function Split(s: string, c: char): (r: seq<string>)
    ensures |r| == Count(s, c) + 1
    ensures forall k :: 0 <= k < |r| ==> c !in r[k]
  {
    if s == [] then [[]]
    else
      var rest := Split(s[1..], c);
      if s[0] == c then [[]] + rest
      else [[s[0]] + rest[0]] + rest[1..]
  }

  /** `sep.join(pieces)`: `pieces` with `sep` between each two of them. */
  function JoinedWith(pieces: seq<string>, sep: string): string {
    if pieces == [] then []
    else if |pieces| == 1 then pieces[0]
    else pieces[0] + sep + JoinedWith(pieces[1..], sep)
  }

  /** `c.join(pieces)`, for a one-character separator. */
  function Join(pieces: seq<string>, c: char): string {
    JoinedWith(pieces, [c])
  }

  /** Joining the pieces back with the separator gives the original text. */
  lemma {:induction false} SplitJoin(s: string, c: char)
    ensures Join(Split(s, c), c) == s
  {
    if s != [] {
      SplitJoin(s[1..], c);
      var rest := Split(s[1..], c);
      if s[0] != c {
        if |rest| == 1 {
          assert [s[0]] + rest[0] == s;
        } else {
          assert rest == [rest[0]] + rest[1..];
          assert Join(rest, c) == rest[0] + [c] + Join(rest[1..], c);
          assert s == [s[0]] + s[1..];
        }
      } else {
        assert s == [c] + s[1..];
      }
    }
  }

  /** Text without the separator is a single piece. */
  lemma {:induction false} SplitNoSeparator(s: string, c: char)
    requires c !in s
    ensures Split(s, c) == [s]
  {
    if s != [] {
      SplitNoSeparator(s[1..], c);
      assert [s[0]] + s[1..] == s;
    }
  }

  /** The first piece ends at the first separator and the rest is split independently. */
  lemma {:induction false} SplitAtFirst(a: string, c: char, b: string)
    requires c !in a
    ensures Split(a + [c] + b, c) == [a] + Split(b, c)
  {
    var s := a + [c] + b;
    if a == [] {
      assert s[1..] == b;
    } else {
      assert s[1..] == a[1..] + [c] + b;
      SplitAtFirst(a[1..], c, b);
      assert [a[0]] + a[1..] == a;
    }
  }

  /** Pieces without the separator, once joined, split back into the same pieces. */
  lemma {:induction false} JoinSplit(pieces: seq<string>, c: char)
    requires |pieces| >= 1
    requires forall k :: 0 <= k < |pieces| ==> c !in pieces[k]
    ensures Split(Join(pieces, c), c) == pieces
  {
    if |pieces| == 1 {
      SplitNoSeparator(pieces[0], c);
    } else {
      JoinSplit(pieces[1..], c);
      SplitAtFirst(pieces[0], c, Join(pieces[1..], c));
      assert [pieces[0]] + pieces[1..] == pieces;
    }
  }

  /** `s.split()`: the maximal runs of non-whitespace, with no empty pieces. */
  function Words(s: string): (r: seq<string>)
    ensures forall k :: 0 <= k < |r| ==> r[k] != [] && All(r[k], NotSpace)
    ensures Flatten(r) == Filter(s, NotSpace)
  {
    RunsCoverClass(s, NotSpace);
    Runs(s, NotSpace)
  }

  /** `s.split()[0]` is the first word, whatever whitespace stands before it and after it. */
  lemma FirstWord(lead: string, word: string, rest: string)
    requires All(lead, IsSpace)
    requires word != [] && All(word, NotSpace)
    requires rest == [] || IsSpace(rest[0])
    ensures Words(lead + word + rest) != [] && Words(lead + word + rest)[0] == word
  {
    forall i | 0 <= i < |lead| ensures !NotSpace(lead[i]) {
      assert IsSpace(lead[i]);
    }
    assert lead + word + rest == lead + (word + rest);
    RunsSkipPrefix(lead, word + rest, NotSpace);
    RunsOfRun(word, NotSpace);
    if rest == [] {
      assert word + rest == word;
    } else {
      assert word + rest == word + [rest[0]] + rest[1..];
      RunsSplit(word, rest[0], rest[1..], NotSpace);
    }
  }

  /** Text made only of whitespace has no words. */
  lemma NoWords(s: string)
    requires All(s, IsSpace)
    ensures Words(s) == []
  {
    forall i | 0 <= i < |s| ensures !NotSpace(s[i]) {
      assert IsSpace(s[i]);
    }
    RunsOfNone(s, NotSpace);
  }

  /** `needle` occurs in `hay` starting at index `i`. */
  predicate OccursAt(hay: string, needle: string, i: int) {
    0 <= i && i + |needle| <= |hay| && hay[i..i + |needle|] == needle
  }

  /** `needle in hay` for strings. */
  function Contains(hay: string, needle: string): bool
    decreases |hay|
  {
    if |needle| > |hay| then false
    else if hay[..|needle|] == needle then true
    else Contains(hay[1..], needle)
  }

  /** `needle in hay` holds exactly when `needle` occurs somewhere in `hay`. */
  lemma {:induction false} ContainsOccurs(hay: string, needle: string)
    ensures Contains(hay, needle) <==> exists i :: OccursAt(hay, needle, i)
    decreases |hay|
  {
    if |needle| > |hay| {
    } else if hay[..|needle|] == needle {
      assert OccursAt(hay, needle, 0);
    } else {
      ContainsOccurs(hay[1..], needle);
      if exists i :: OccursAt(hay, needle, i) {
        var i :| OccursAt(hay, needle, i);
        assert i != 0;
        assert hay[1..][i - 1..i - 1 + |needle|] == hay[i..i + |needle|];
        assert OccursAt(hay[1..], needle, i - 1);
      }
      if exists i :: OccursAt(hay[1..], needle, i) {
        var i :| OccursAt(hay[1..], needle, i);
        assert hay[1..][i..i + |needle|] == hay[i + 1..i + 1 + |needle|];
        assert OccursAt(hay, needle, i + 1);
      }
    }
  }

  /** A needle whose first character never appears in `hay` is not in `hay`. */
  lemma ContainsNeedsFirst(hay: string, needle: string)
    requires needle != [] && needle[0] !in hay
    ensures !Contains(hay, needle)
  {
    ContainsOccurs(hay, needle);
  }

  /**
   * `s.replace(pat, with)`: every non-overlapping occurrence of `pat`, scanning left to right,
   * replaced by `with`. Text without `pat` is returned unchanged.
   */
  function Replace(s: string, pat: string, with: string): (r: string)
    requires pat != []
    ensures !Contains(s, pat) ==> r == s
    decreases |s|
  {
    if |s| < |pat| then s
    else if s[..|pat|] == pat then with + Replace(s[|pat|..], pat, with)
    else
      assert !Contains(s, pat) ==> !Contains(s[1..], pat);
      assert [s[0]] + s[1..] == s;
      [s[0]] + Replace(s[1..], pat, with)
  }

  /** Replacing a whole token that is exactly `pat` gives `with`. */
  lemma ReplaceWhole(pat: string, with: string)
    requires pat != []
    ensures Replace(pat, pat, with) == with
  {
    assert pat[|pat|..] == [];
    assert with + [] == with;
  }

  /**
   * The first occurrence of `pat` is replaced and the scan resumes after it: when `pat`
   * does not occur before the copy of it placed after `a`, the text up to that copy is kept.
   */
  lemma ReplaceLeftmost(a: string, pat: string, b: string, with: string)
    requires pat != []
    requires !Contains(a + pat[..|pat| - 1], pat)
    ensures Replace(a + pat + b, pat, with) == a + with + Replace(b, pat, with)
  {
    var t, rest := pat + b, Replace(b, pat, with);
    assert a + pat + b == a + t;
    assert a + with + rest == a + (with + rest);
    assert t[..|pat|] == pat;
    ReplaceAtFront(pat, b, with);
    ReplaceKeepsPrefix(a, t, pat, with);
  }

  /** Before a text `t` that starts with `pat`, a prefix `a` in which `pat` does not begin is kept. */
  lemma {:induction false} ReplaceKeepsPrefix(a: string, t: string, pat: string, with: string)
    requires pat != [] && |t| >= |pat| && t[..|pat|] == pat
    requires !Contains(a + pat[..|pat| - 1], pat)
    ensures Replace(a + t, pat, with) == a + Replace(t, pat, with)
    decreases |a|
  {
    if a == [] {
      assert a + t == t;
    } else {
      PatternNotAtFront(a, pat, t[|pat|..]);
      assert t == pat + t[|pat|..];
      ReplaceSkipsHead(a + t, pat, with);
      ConsTail(a, t);
      ReplaceKeepsPrefix(a[1..], t, pat, with);
      ConsTail(a, Replace(t, pat, with));
    }
  }

  /** `Replace` on a text that starts with `pat` emits `with` and resumes after it. */
  lemma ReplaceAtFront(pat: string, b: string, with: string)
    requires pat != []
    ensures Replace(pat + b, pat, with) == with + Replace(b, pat, with)
  {
    var s := pat + b;
    assert s[..|pat|] == pat && s[|pat|..] == b;
  }

  /** `Replace` keeps the first character of a text that does not start with `pat`. */
  lemma ReplaceSkipsHead(s: string, pat: string, with: string)
    requires pat != [] && |s| >= |pat| && s[..|pat|] != pat
    ensures Replace(s, pat, with) == [s[0]] + Replace(s[1..], pat, with)
  {
  }

  /** Dropping the head of `a + x` leaves `a[1..] + x`, and putting it back restores it. */
  lemma ConsTail(a: string, x: string)
    requires a != []
    ensures (a + x)[0] == a[0] && (a + x)[1..] == a[1..] + x
    ensures [a[0]] + (a[1..] + x) == a + x
  {
  }

  /** When `pat` first occurs after a non-empty `a`, it is not at the front, nor earlier in `a[1..]`. */
  lemma PatternNotAtFront(a: string, pat: string, b: string)
    requires pat != [] && a != []
    requires !Contains(a + pat[..|pat| - 1], pat)
    ensures |a + pat + b| >= |pat| && (a + pat + b)[..|pat|] != pat
    ensures !Contains(a[1..] + pat[..|pat| - 1], pat)
  {
    var h := a + pat[..|pat| - 1];
    assert h[..|pat|] != pat;
    assert (a + pat + b)[..|pat|] == h[..|pat|];
    assert h[1..] == a[1..] + pat[..|pat| - 1];
  }

  /** `c.lower()` for one character; only the ASCII letters `A`-`Z` change. */
  function LowerChar(c: char): char {
    if 'A' <= c <= 'Z' then (c as int + 32) as char else c
  }

  /**
   * `s.lower()`: the same length, no ASCII capital is left, and every other character is
   * kept where it was.
   */
  function Lower(s: string): (r: string)
    ensures |r| == |s|
    ensures forall i :: 0 <= i < |r| ==> !('A' <= r[i] <= 'Z')
    ensures forall i :: 0 <= i < |r| && !('A' <= s[i] <= 'Z') ==> r[i] == s[i]
    ensures forall i :: 0 <= i < |r| && 'A' <= s[i] <= 'Z' ==> r[i] == (s[i] as int + 32) as char
  {
    seq(|s|, i requires 0 <= i < |s| => LowerChar(s[i]))
  }

  /** Lowering twice is lowering once. */
  lemma LowerIdempotent(s: string)
    ensures Lower(Lower(s)) == Lower(s)
  {
  }

  /**
   * `xs.index(x)`: the index of the first occurrence of `x`, or `None` for the
   * `ValueError` Python raises when `x` is not in `xs`.
   */
  function IndexOf<T(==)>(xs: seq<T>, x: T): (r: Option<nat>)
    ensures r.Some? ==> r.value < |xs| && xs[r.value] == x && x !in xs[..r.value]
    ensures r.None? <==> x !in xs
  {
    if xs == [] then None
    else if xs[0] == x then Some(0)
    else
      match IndexOf(xs[1..], x)
      case None => None
      case Some(k) =>
        assert xs[..k + 1] == [xs[0]] + xs[1..][..k];
        Some(k + 1)
  }
}

=== FILE: wrappers.dfy ===
/** Option and Result, the two shapes every lookup and extractor returns. */
module Wrappers {

  /** The result of a selector's `.get()`: the text, or Python's `None`. */
  datatype Option<+T> = None | Some(value: T)

  /** A value, or the exception that Python would raise instead. */
  datatype Result<+T, +E> = Ok(value: T) | Err(error: E) {
    predicate IsFailure() {
      Err?
    }

    function PropagateFailure<U>(): Result<U, E>
      requires Err?
    {
      Err(error)
    }

    function Extract(): T
      requires Ok?
    {
      value
    }
  }
}
